=== FILE: README.md ===
# join-zoom, modelled in Dafny

join-zoom reads the next few Google Calendar events and helps you join the right Zoom meeting.
- The command-line script `zoom.py` picks the first or the second upcoming event.
- The Alfred workflow `zoom-alfred.py` lists timed meetings that have a Zoom link and says whether one of them is the obvious meeting to join.

This project models the decision core of both scripts. Everything before it (fetching, authorisation) and everything after it (printing, Alfred's JSON) is left out.

Modules, one file each:

- `Wrappers` (`wrappers.dfy`): `Option`, `Result`, and `Fault`. `Fault` holds the Python exceptions the core lets escape: `StopIteration`, `TypeError`, `ValueError` and `IndexError`.
- `Constants` (`constants.dfy`): the values of `constants.py`. It also holds `MicrosPerMinute`, the number of microseconds in a minute, because instants are integers counting microseconds.
- `Calendar` (`calendar.dfy`): the raw event as the calendar API delivers it.
  - `start` and `end` are maps, so "is key `date` present" is a literal test.
  - The location and the conference entry points are optional.
  - `RawDatetime` reads `dateTime` and falls back to `date`.
- `Text` (`text.dfy`): the string operations the core uses.
  - `sub in s`, `s.split(c)`, and `s.split(c)[-1]`.
  - Cutting at the first occurrence of a character.
- `Seqs` (`seqs.dfy`): `next(x for x in xs if p(x))` as `FindFirst`, and `[x for x in xs if p(x)]` as `Select`.
- `UrlParse` (`url_parse.dfy`): as much of `urlparse` and `parse_qs` as `convert_to_zoom_protocol` reads.
- `Zoom` (`zoom.dfy`), from `zoom.py`:
  - `is_day_only`;
  - `get_zoom_link` and `has_zoom_link`;
  - `convert_to_zoom_protocol`;
  - `find_event_to_join`.
- `ZoomAlfred` (`zoom_alfred.dfy`), from `zoom-alfred.py`:
  - `parse_event_datetime`;
  - `augment` and `parse_events`;
  - the filter in `command_list` and, in its `--format alfred` branch, the call of `find_meeting_to_join` on the filtered records;
  - `find_meeting_to_join`.

How the model treats time, parsing and exceptions:
- Time is a parameter (`now`).
- `datetime.fromisoformat` is a parameter (`fromIso: string -> Option<Instant>`). `None` stands for text it rejects.
- Exceptions are values. A function that can raise returns a `Result` whose `Failure` names the exception.
- `next(...)` without a default on an exhausted generator is `Failure(StopIteration)`.
- Comparing `None` with a datetime is `Failure(TypeError)`.

Two behaviours of the code that a reader might not expect, both modelled as written:
- Normalising a timed event can raise TypeError, when its start does not parse, or when it has started and its end does not parse (`ZoomAlfred.EventTiming`).
- The comma split of a location keeps the text of the chosen segment as it stands, leading space included (`Zoom.LocationExample`).

## Model

| member | source | states |
|---|---|---|
| Calendar.Location | zoom.py:57 | an event without a location reads as having the empty location |
| Calendar.EntryPoints | zoom.py:65 | an event without conference data, or whose conference data has no entry points, reads as having none |
| Calendar.RawDatetime | zoom-alfred.py:154 | the text of `dateTime` when present, else of `date`, and nothing exactly when neither key is present |
| Text.Split | zoom.py:62 | `s.split(c)` has at least one part and no part contains `c` |
| Text.JoinSplit | zoom.py:62 | joining the parts of a split with the separator gives back the original text |
| Text.ContainsSurvivesSplit | zoom.py:59-62 | text containing a marker free of the separator has a segment containing the marker, so the comma split in `get_zoom_link` always finds a Zoom segment |
| Text.LastSegment | zoom.py:94 | `s.split("/")[-1]` contains no `/`, and is either all of `s` or follows the last `/` at the end of `s` |
| Text.LastSegmentUnique | zoom.py:94 | only one text has that property, so the characterisation determines `confno` |
| Text.IndexOfAfterPrefix | zoom.py:93-95 | for `a + [c] + b` where `a` has no `c`: the first `c` is at `|a|`, the text before it is `a`, and the text after it is `b` |
| Seqs.FindFirst | zoom.py:62 | `next(x for x in xs if p(x))` returns the index of the first match, and nothing exactly when no element matches |
| Seqs.Select | zoom-alfred.py:218-219 | a comprehension holds only elements of the list that satisfy the predicate, and each such element exactly as often as the list does, duplicates included |
| Seqs.SelectAppend | zoom-alfred.py:218-219 | the comprehension of a concatenation is the concatenation of the comprehensions, so the list's order is kept |
| Seqs.SelectOfOne | zoom-alfred.py:218-219 | on a single element the comprehension keeps it exactly when it satisfies the predicate; with `SelectAppend` this determines the result for every list |
| Seqs.SelectOnly | zoom-alfred.py:220-223 | when exactly one element satisfies the predicate, the comprehension is that one element |
| Seqs.SelectSingleton | zoom-alfred.py:220-223 | a comprehension of length one comes from the only element that satisfies the predicate |
| UrlParse.UrlSplit | zoom.py:93 | the URL is made of its parts: the authority is the longest run after `<scheme>://` free of `/`, `?` and `#` (empty without `://`); the text after it, up to the first `#`, is the path, followed by `?` and the query when there is a `?`; the path holds no `?` or `#` |
| UrlParse.QueryValue | zoom.py:95-104 | there is a `pwd` value exactly when the query has a field `pwd=` with a non-empty value, and it is the value of the first such field; it contains no `&` |
| UrlParse.QueryValueOfFields | zoom.py:95-104 | the fields are read left to right: a leading `pwd` field decides the value, and any other leading field is skipped |
| UrlParse.FieldValue | zoom.py:95-104 | over a list of fields: a value exactly when some field is kept under the name, and then the first such field's |
| UrlParse.UrlSplitOfLink | zoom.py:93 | `<scheme>://<host><path>?<query>` splits into exactly that host, path and query |
| UrlParse.UrlSplitOfQuerylessLink | zoom.py:93 | `<scheme>://<host><path>` splits into that host, that path and an empty query |
| UrlParse.QueryValueOfSingleField | zoom.py:95 | the query `name=value` yields `value` for `name` |
| UrlParse.EmptyQueryHasNoParam | zoom.py:101 | an empty query has no `pwd` field |
| Zoom.IsDayOnly | zoom.py:44-47 | an event is all-day exactly when its start has a `date` key, and such an event always has a start text to read |
| Zoom.IsNotDayOnly | zoom.py:50-51 | the exact complement of all-day; a timed event's start text comes from `dateTime` alone, and is missing when that key is |
| Zoom.GetZoomLink | zoom.py:54-78 | a returned link contains `zoom.us`; the only exception is StopIteration |
| Zoom.LocationFirst | zoom.py:57-63 | a location naming Zoom decides alone: the whole location when it has no comma, else the first comma-separated segment naming Zoom; the entry points are never read |
| Zoom.LocationSegmentAfterComma | zoom.py:60-63 | for `<place>,<link>` where only `<link>` names Zoom, the result is `<link>` exactly as written |
| Zoom.LocationExample | zoom.py:62-63 | the location `Room 4, https://zoom.us/j/1` yields ` https://zoom.us/j/1`, keeping the leading space |
| Zoom.EntryPointFallback | zoom.py:65-78 | without Zoom in the location: the URI of the first Zoom entry point; no link for no entry points; StopIteration when there are entry points but none is Zoom |
| Zoom.GetZoomLinkOutcome | zoom.py:54-78 | a link exactly when the location or an entry point names Zoom; no link exactly when neither does and there are no entry points; StopIteration exactly when there are entry points but none is Zoom |
| Zoom.AbsentKeysReadAsDefaults | zoom.py:57-65 | the extractor cannot tell a missing location from an empty one, nor missing conference data from an empty list of entry points |
| Zoom.HasZoomLink | zoom.py:81-82 | true exactly when the location or an entry point names Zoom; false exactly when neither does and there are no entry points; otherwise the StopIteration escapes |
| Zoom.JoinLink | zoom.py:97-107 | every rewritten link starts with `zoommtg://ellevationeducation.zoom.us/join?action=join&confno=` |
| Zoom.JoinLinkLayout | zoom.py:97-107 | after the prefix comes `confno`, then `&pwd=<pwd>` exactly when there is a password |
| Zoom.ConvertToZoomProtocol | zoom.py:85-107 | the result starts with the fixed join prefix, whatever the input host |
| Zoom.ConvertLayout | zoom.py:93-107 | after the prefix is the last `/`-segment of the path, then `&pwd=` and the first `pwd` value exactly when the query has one |
| Zoom.ConvertJoinLink | zoom.py:85-107 | `<scheme>://<host>/j/<confno>?pwd=<pwd>` becomes the join prefix, `confno`, `&pwd=` and `pwd` |
| Zoom.ConvertJoinLinkWithoutPassword | zoom.py:85-107 | `<scheme>://<host>/j/<confno>` becomes the join prefix followed by `confno` |
| Zoom.LastSegmentOfJoinPath | zoom.py:94 | the last segment of `/j/<confno>` is `confno` |
| Zoom.ConvertDocstringExample | zoom.py:86-92 | the docstring's example URL rewrites to the docstring's `zoommtg:` link |
| Zoom.FindEventToJoin | zoom.py:110-122 | IndexError exactly for an empty list; otherwise the first or the second event; a single event is returned as is; TypeError when the second start has no `dateTime` or `date`, and ValueError when that text does not parse |
| Zoom.FindEventToJoinSwitch | zoom.py:113-120 | the second event is chosen exactly when its start is less than three minutes after `now`, which includes one that has already started |
| Zoom.FindEventToJoinIgnoresLater | zoom.py:110-122 | events after the second never change the choice |
| ZoomAlfred.GetZoomLink | zoom-alfred.py:100-123 | the Alfred copy of the extractor: a Zoom link exactly when the location or an entry point names Zoom; no link exactly when neither does and there are no entry points; otherwise StopIteration |
| ZoomAlfred.HasZoomLink | zoom-alfred.py:96-97 | succeeds exactly when the extractor does, and is then true exactly when a link was found |
| ZoomAlfred.ParseEventDatetime | zoom-alfred.py:153-161 | parses `dateTime` when present, else `date`, and yields nothing when neither key is present |
| ZoomAlfred.EventTiming | zoom-alfred.py:169-176 | a timed event raises TypeError exactly when its start is unreadable, or when it has started and its end is unreadable; the in-progress flag means timed, started, and not yet ended; the next-joinable flag means timed and starting within three minutes; the two flags never both hold, and neither holds for an all-day event |
| ZoomAlfred.AttachLink | zoom-alfred.py:180-183 | a rewritten link exactly when the link is present and non-empty, and it starts with the join prefix |
| ZoomAlfred.ExtractedLinkIsTruthy | zoom-alfred.py:180-183 | a link the extractor returns is never empty, so `if link:` always rewrites it |
| ZoomAlfred.Augment | zoom-alfred.py:166-203 | fails exactly when the timing or the extractor raises, with TypeError from the timing and otherwise with the extractor's StopIteration unchanged; otherwise keeps the id, the summary and the timing flags, and carries a link exactly when the extractor found one, rewritten by `convert_to_zoom_protocol` |
| ZoomAlfred.ParseEvents | zoom-alfred.py:164-205 | record `i` is what `augment` makes of event `i`, for every record; the list is never longer than the input, and when it is shorter, the event at the cut raised StopIteration; only TypeError escapes |
| ZoomAlfred.PrefixCons | zoom-alfred.py:205 | the head's record in front of a correct prefix for the rest is a correct prefix for the whole list |
| ZoomAlfred.ParseEventsTruncates | zoom-alfred.py:205 | when the first StopIteration comes from event `k`, `parse_events` succeeds with exactly `k` records |
| ZoomAlfred.GetZoomLinkIntended | zoom-alfred.py:100-123 | with `next(..., None)`: no link exactly when neither the location nor an entry point names Zoom; agrees with the extractor wherever that does not raise |
| ZoomAlfred.AugmentIntended | zoom-alfred.py:166-203 | with the corrected extractor, only the time comparisons can raise; the record keeps the id, the summary, the parsed start and the timing flags, and carries a link exactly when the corrected extractor finds one, rewritten by `convert_to_zoom_protocol`; agrees with `augment` wherever `augment` succeeds |
| ZoomAlfred.ParseEventsIntended | zoom-alfred.py:164-205 | corrected: exactly one record per event, in order, each made by the corrected `augment`; fails exactly when some event's time comparison raises, and then with TypeError |
| ZoomAlfred.AllCons | zoom-alfred.py:205 | the head's record in front of the rest's records covers the whole list |
| ZoomAlfred.TimingFailsCons | zoom-alfred.py:205 | a time comparison fails somewhere exactly when it fails at the head or in the rest |
| ZoomAlfred.ParseEventsIntendedKeepsIds | zoom-alfred.py:167-205 | the corrected list has as many records as there are events, and record `i` carries the id of event `i` |
| ZoomAlfred.ParseEventsIntendedCons | zoom-alfred.py:205 | the corrected list is the head's record followed by the rest's records |
| ZoomAlfred.ParseEventsAgree | zoom-alfred.py:164-205 | when no extraction raises, the list as written equals the corrected list |
| ZoomAlfred.IsListed | zoom-alfred.py:250 | a record passes the list filter exactly when it is timed and its link is present and non-empty, the truthiness `e.zoom_link` tests |
| ZoomAlfred.ListedEvents | zoom-alfred.py:250 | the listed events are the timed events with a non-empty link, each exactly as often as in the input, and nothing else |
| ZoomAlfred.ListedEventsAppend | zoom-alfred.py:250 | the filter works piece by piece, so it keeps the order of the events |
| ZoomAlfred.FindMeetingToJoin | zoom-alfred.py:208-228 | NoOptions exactly for an empty list; a meeting is returned exactly with FoundNextMeeting, and it is a next-joinable or in-progress element of the list |
| ZoomAlfred.FindMeetingPrefersUniqueNext | zoom-alfred.py:219-221 | a single next-joinable meeting is chosen, whatever is in progress |
| ZoomAlfred.FindMeetingFallsBackToInProgress | zoom-alfred.py:222-223 | with no single next-joinable meeting, a single in-progress meeting is chosen |
| ZoomAlfred.FindMeetingAmbiguous | zoom-alfred.py:224-226 | a non-empty list with neither a single next-joinable nor a single in-progress meeting gives MultipleOptions and no meeting |
| ZoomAlfred.Resolve | zoom-alfred.py:250-255 | the alfred branch of `command_list`: the listed items are the timed, linked records, each exactly as often as parsed, and nothing else; the verdict and the meeting are what `find_meeting_to_join` answers on those items, so NoOptions exactly when nothing is listed and a chosen meeting is one of the listed items |
| ZoomAlfred.ResolveKeepsOrder | zoom-alfred.py:250-254 | the offered items of a concatenation are those of each part in turn, so they keep the order of the parsed records |
| ZoomAlfred.CommandListAsWritten | zoom-alfred.py:243-255 | the alfred branch as written: fails exactly when `parse_events` does; the items are exactly the timed, linked records of the truncated parse, each the augmented record of some input event; the verdict is `find_meeting_to_join` of the items |
| ZoomAlfred.CommandList | zoom-alfred.py:243-255 | the alfred branch, corrected: fails exactly when a time comparison raises; every timed, linked meeting is listed, and nothing else, every item being a record of the corrected parse; the verdict is `find_meeting_to_join` of the items, and a chosen meeting is one of them, next joinable or in progress, and comes from an input event |
| ZoomAlfred.LeakHidesMeeting | zoom-alfred.py:205-250 | an all-day event whose entry points hold no Zoom link, placed before a next-joinable Zoom meeting, makes the pipeline as written answer NoOptions, while the corrected pipeline finds that meeting |
| ZoomAlfred.IntendedKeepsBoth | zoom-alfred.py:205 | the corrected parse keeps both an all-day event and the meeting after it |
| ZoomAlfred.ResolveUniqueNext | zoom-alfred.py:219-221 | an unlisted record next to a listed, next-joinable meeting leaves that meeting as the one to join |
| ZoomAlfred.MeetOnlyEventRaises | zoom-alfred.py:112-117 | an event whose only entry point is a Google Meet link makes the extractor raise StopIteration |
| ZoomAlfred.ImminentZoomMeetingIsListed | zoom-alfred.py:172-183 | a timed meeting two minutes away, located at a Zoom URL, is listed and next joinable |
| ZoomAlfred.MeetEventHidesRetro | zoom-alfred.py:205 | the concrete case: an all-day Meet offsite hides a Zoom retro two minutes away |

## Left out

- OAuth, the credential cache, and the calendar fetch (`_fetch_creds`, `fetch_events`): these are network and file I/O. The fetched list is a parameter.
- `main`, argument parsing, and the browser launch in both scripts: process-level I/O.
- alfred.py, `MyEvent.to_item`, and the JSON and variables written for Alfred: presentation only.
- The icon chosen from the summary (zoom-alfred.py:185-191): presentation only, so `MyEvent` has no icon field.
- The debug and print output: side effects only.
- `datetime.fromisoformat` and time zones: the parser is an abstract parameter. Instants are integers counting microseconds, which is the resolution of `datetime` and `timedelta`. The source does no time-zone handling either.
- The HOURS_AHEAD and NUM_NEXT constants: they only shape the fetch request. They are declared, but nothing reads them.
- `urlparse` and `parse_qs` are simplified:
  - the netloc starts after the first `:` followed by `//`;
  - the path ends at the first `?` or `#`;
  - fields split on `&` and then on the first `=`;
  - fields with an empty value are dropped.
  - Percent-decoding, `+` as a space, `;` separators, and the other URL components are not modelled.
- UrlParse.UrlSplit: two behaviours of `urlparse` are not modelled. For `https` and the other schemes that take parameters, `urlparse` moves a `;params` tail of the last path segment out of `path`, so `https://zoom.us/j/123;x` gives the meeting number `123` in the source but `123;x` here (`Zoom.ConvertLayout` inherits this). And `urlsplit` raises ValueError when the netloc holds an unbalanced `[` or `]`, which the model never does. Zoom join links normally carry neither.
- The non-alfred branch of `command_list`, which only prints a placeholder line.
- `conferenceData.entryPoints` is one optional sequence on the event. A missing `conferenceData` and a missing `entryPoints` both read as the empty list, as `.get(..., {})` and `.get(..., [])` make them.
- A missing `id`, `summary`, `start` or `end` key would raise KeyError in the source. The model's events always carry these fields.
- zoom.py's `main` filters the fetched events before calling `find_event_to_join`. Only `find_event_to_join` itself is modelled.
- Zoom.FindEventToJoin: does not model the TypeError of subtracting the time-zone-aware `now` from a naive instant, which `fromisoformat` returns for a date-only start or a `dateTime` without an offset; instants carry no time zone here. zoom.py's `main` only passes timed events with a Zoom link, whose `dateTime` from the calendar carries an offset.
- ZoomAlfred.EventTiming: does not model the TypeError of comparing a naive start or end with the time-zone-aware `now`, for the same reason.

## Findings

| source | as written | input that shows it | evidently intended | confidence | as-written member | corrected member |
|---|---|---|---|---|---|---|
| zoom-alfred.py:205 | `next(...)` on line 115 without a default raises StopIteration when an event has entry points but none is a Zoom link. In `list(map(augment, events))` that exception reads as the end of the iterator, so `parse_events` silently drops that event and every later one. | An all-day event whose only entry point is `https://meet.google.com/abc-defg-hij`, followed by a Zoom meeting that starts in two minutes. The list command then offers nothing (`MeetEventHidesRetro`). | Such an event has no link (`next(..., None)`). Every event gets a record, and the Zoom meeting is offered as the one to join. | high; not executed | ZoomAlfred.ParseEvents | ZoomAlfred.ParseEventsIntended |

=== FILE: calendar.dfy ===
/**
 * The raw Google Calendar event, as far as the core reads it.  The Python code
 * works on plain dicts; here each key it reads becomes a field, and an absent
 * key becomes `None`.
 */
module Calendar {
  import opened Wrappers

  /** An instant, in microseconds since a fixed epoch. */
  type Instant = int

  /**
   * `datetime.fromisoformat` wrapped in the `try/except` of parse_event_datetime:
   * the instant the text denotes, or `None` when it cannot be read.
   */
  type IsoParser = string -> Option<Instant>

  /** The `start` / `end` dict of an event: keys "dateTime", "date", "timeZone". */
  type DateField = map<string, string>

  /** One entry of `conferenceData.entryPoints`; only its "uri" key is read. */
  datatype EntryPoint = EntryPoint(uri: Option<string>)

  /**
   * A calendar event.  `entryPoints` is `None` both when the event has no
   * "conferenceData" and when that dict has no "entryPoints": the code reads
   * both through `.get(..., default)` and cannot tell them apart.
   */
  datatype RawEvent = RawEvent(
    id: string,
    summary: string,
    start: DateField,
    end: DateField,
    location: Option<string>,
    entryPoints: Option<seq<EntryPoint>>)

  /** `event.get("location", "")`: an absent location reads as the empty text. */
  function Location(event: RawEvent): (r: string)
    ensures event.location.None? ==> r == ""
    ensures event.location.Some? ==> r == event.location.value
  {
    event.location.GetOr("")
  }

  /**
   * `event.get("conferenceData", {}).get("entryPoints", [])`: absent conference
   * data reads as no entry points.
   */
  function EntryPoints(event: RawEvent): (r: seq<EntryPoint>)
    ensures event.entryPoints.None? ==> r == []
    ensures event.entryPoints.Some? ==> r == event.entryPoints.value
  {
    event.entryPoints.GetOr([])
  }

  /** `d.get("dateTime", d.get("date"))`: the precise instant wins over the bare date. */
  function RawDatetime(d: DateField): (r: Option<string>)
    ensures r.Some? <==> "dateTime" in d || "date" in d
    ensures "dateTime" in d ==> r == Some(d["dateTime"])
    ensures "dateTime" !in d && "date" in d ==> r == Some(d["date"])
  {
    if "dateTime" in d then Some(d["dateTime"])
    else if "date" in d then Some(d["date"])
    else None
  }
}

=== FILE: constants.dfy ===
/** The tuning constants of constants.py, and the unit instants are counted in. */
module Constants {

  /** How many hours ahead the calendar fetch looks (used only by the fetch). */
  const HoursAhead: int := 9

  /** How many events the calendar fetch asks for (used only by the fetch). */
  const NumNext: int := 5

  /** An upcoming event is "next joinable" when it starts within this many minutes. */
  const JoinableIfNextStartsWithin: int := 3

  /** Instants and durations are counted in microseconds, the resolution of Python's datetime. */
  const MicrosPerMinute: int := 60 * 1000 * 1000

  /** `timedelta(minutes=JoinableIfNextStartsWithin)` in microseconds. */
  const JoinableWindow: int := JoinableIfNextStartsWithin * MicrosPerMinute
}

=== FILE: seqs.dfy ===
/**
 * Python's two ways of picking from a list: `next(x for x in xs if p(x))`
 * (the first match) and `[x for x in xs if p(x)]` (all matches, in order).
 */
module Seqs {
  import opened Wrappers

  /** `k` is the index of the first element of `xs` satisfying `p`. */
  predicate IsFirstAt<T>(xs: seq<T>, p: T -> bool, k: int) {
    0 <= k < |xs| && p(xs[k]) && forall j :: 0 <= j < k ==> !p(xs[j])
  }

  /** `k` is the only index of `xs` whose element satisfies `p`. */
  predicate OnlyAt<T>(xs: seq<T>, p: T -> bool, k: int) {
    0 <= k < |xs| && p(xs[k]) && forall j :: 0 <= j < |xs| && j != k ==> !p(xs[j])
  }

  /**
   * The index `next(...)` stops at, or `None` where `next` without a default
   * would raise StopIteration.
   */
  function FindFirst<T>(xs: seq<T>, p: T -> bool): (r: Option<nat>)
    ensures r.Some? ==> IsFirstAt(xs, p, r.value)
    ensures r.None? <==> forall j :: 0 <= j < |xs| ==> !p(xs[j])
  {
    if |xs| == 0 then None
    else if p(xs[0]) then Some(0)
    else
      match FindFirst(xs[1..], p)
      case None => None
      case Some(k) => Some(k + 1)
  }

  /** `r` holds each element of `xs` that satisfies `p` as often as `xs` does, and no other. */
  predicate KeepsCounts<T(==)>(xs: seq<T>, p: T -> bool, r: seq<T>) {
    forall j :: 0 <= j < |xs| ==> multiset(r)[xs[j]] == if p(xs[j]) then multiset(xs)[xs[j]] else 0
  }

  /** `r` is drawn from `xs`, holds only elements satisfying `p`, and keeps their counts. */
  predicate IsSelection<T(==)>(xs: seq<T>, p: T -> bool, r: seq<T>) {
    && |r| <= |xs|
    && (forall j :: 0 <= j < |r| ==> p(r[j]) && r[j] in xs)
    && KeepsCounts(xs, p, r)
  }

  /**
   * `[x for x in xs if p(x)]`: every matching element as often as it occurs,
   * and nothing else (the order is `SelectAppend`'s).
   */
  function Select<T>(xs: seq<T>, p: T -> bool): (r: seq<T>)
    ensures |r| <= |xs|
    ensures forall j :: 0 <= j < |r| ==> p(r[j])
    ensures forall j :: 0 <= j < |r| ==> r[j] in xs
    ensures forall j :: 0 <= j < |xs| && p(xs[j]) ==> xs[j] in r
    ensures KeepsCounts(xs, p, r)
  {
    if |xs| == 0 then []
    else
      var rest := Select(xs[1..], p);
      var r := if p(xs[0]) then [xs[0]] + rest else rest;
      SelectStep(xs, p, rest);
      SelectionHoldsMatches(xs, p, r);
      r
  }

  /** One step of the comprehension: the head is kept exactly when it matches. */
  lemma SelectStep<T>(xs: seq<T>, p: T -> bool, rest: seq<T>)
    requires |xs| > 0
    requires IsSelection(xs[1..], p, rest)
    ensures IsSelection(xs, p, if p(xs[0]) then [xs[0]] + rest else rest)
  {
    SelectStepMembers(xs, p, rest);
    SelectStepCounts(xs, p, rest);
  }

  lemma SelectStepMembers<T>(xs: seq<T>, p: T -> bool, rest: seq<T>)
    requires |xs| > 0
    requires forall j :: 0 <= j < |rest| ==> p(rest[j]) && rest[j] in xs[1..]
    ensures var r := if p(xs[0]) then [xs[0]] + rest else rest;
      forall j :: 0 <= j < |r| ==> p(r[j]) && r[j] in xs
  {
    var r := if p(xs[0]) then [xs[0]] + rest else rest;
    forall j | 0 <= j < |r|
      ensures p(r[j]) && r[j] in xs
    {
      if p(xs[0]) && j > 0 {
        assert r[j] == rest[j - 1];
      }
    }
  }

  lemma SelectStepCounts<T>(xs: seq<T>, p: T -> bool, rest: seq<T>)
    requires |xs| > 0
    requires forall j :: 0 <= j < |rest| ==> p(rest[j]) && rest[j] in xs[1..]
    requires KeepsCounts(xs[1..], p, rest)
    ensures KeepsCounts(xs, p, if p(xs[0]) then [xs[0]] + rest else rest)
  {
    var r := if p(xs[0]) then [xs[0]] + rest else rest;
    assert xs == [xs[0]] + xs[1..];
    forall j | 0 <= j < |xs|
      ensures multiset(r)[xs[j]] == if p(xs[j]) then multiset(xs)[xs[j]] else 0
    {
      if j > 0 {
        assert xs[j] == xs[1..][j - 1];
      } else if xs[0] !in xs[1..] && !p(xs[0]) {
        assert xs[0] !in rest;
      } else if xs[0] in xs[1..] {
        var i :| 0 <= i < |xs[1..]| && xs[1..][i] == xs[0];
      }
    }
  }

  /** A selection holds every matching element at least once. */
  lemma SelectionHoldsMatches<T>(xs: seq<T>, p: T -> bool, r: seq<T>)
    requires IsSelection(xs, p, r)
    ensures forall j :: 0 <= j < |xs| && p(xs[j]) ==> xs[j] in r
  {
    forall j | 0 <= j < |xs| && p(xs[j])
      ensures xs[j] in r
    {
      assert multiset(xs)[xs[j]] > 0;
    }
  }

  /** The comprehension keeps the order of the list: it works piece by piece. */
  lemma {:induction false} SelectAppend<T>(a: seq<T>, b: seq<T>, p: T -> bool)
    ensures Select(a + b, p) == Select(a, p) + Select(b, p)
    decreases |a|
  {
    if |a| == 0 {
      assert a + b == b;
    } else {
      assert (a + b)[0] == a[0];
      assert (a + b)[1..] == a[1..] + b;
      SelectAppend(a[1..], b, p);
    }
  }

  /** On one element the comprehension keeps it exactly when it matches. */
  lemma SelectOfOne<T>(x: T, p: T -> bool)
    ensures Select([x], p) == if p(x) then [x] else []
  {
    assert [x][1..] == [];
  }

  /** With no match, the comprehension is empty. */
  lemma {:induction false} SelectNone<T>(xs: seq<T>, p: T -> bool)
    requires forall j :: 0 <= j < |xs| ==> !p(xs[j])
    ensures Select(xs, p) == []
  {
    if |xs| > 0 {
      SelectNone(xs[1..], p);
    }
  }

  /** With exactly one match, the comprehension is that one element. */
  lemma {:induction false} SelectOnly<T>(xs: seq<T>, p: T -> bool, k: int)
    requires OnlyAt(xs, p, k)
    ensures Select(xs, p) == [xs[k]]
  {
    if k == 0 {
      SelectNone(xs[1..], p);
    } else {
      assert OnlyAt(xs[1..], p, k - 1);
      SelectOnly(xs[1..], p, k - 1);
    }
  }

  /** A one-element comprehension came from the only matching index. */
  lemma {:induction false} SelectSingleton<T>(xs: seq<T>, p: T -> bool) returns (k: nat)
    requires |Select(xs, p)| == 1
    ensures OnlyAt(xs, p, k)
    ensures Select(xs, p) == [xs[k]]
  {
    if p(xs[0]) {
      assert |Select(xs[1..], p)| == 0;
      assert forall j :: 1 <= j < |xs| ==> xs[j] == xs[1..][j - 1];
      k := 0;
    } else {
      var k' := SelectSingleton(xs[1..], p);
      k := k' + 1;
      assert xs[1..][k'] == xs[k];
    }
  }
}

=== FILE: text.dfy ===
/**
 * The few Python string operations the core uses: `sub in s`, `s.split(sep)`
 * and `s.split(sep)[-1]`, and first-occurrence cuts.
 */
module Text {

  /** `sub` occurs in `s` starting at index `i`. */
  predicate OccursAt(s: string, sub: string, i: int) {
    0 <= i && i + |sub| <= |s| && s[i..i + |sub|] == sub
  }

  /** Python's `sub in s` for strings. */
  predicate Contains(s: string, sub: string) {
    exists i :: 0 <= i <= |s| - |sub| && OccursAt(s, sub, i)
  }

  /** The index of the first `c` in `s`. */
  function IndexOf(s: string, c: char): (i: nat)
    requires c in s
    ensures i < |s| && s[i] == c && c !in s[..i]
  {
    if s[0] == c then 0
    else
      var j := IndexOf(s[1..], c);
      assert s[..j + 1] == [s[0]] + s[1..][..j];
      j + 1
  }

  /** `sep.join(parts)`, the inverse of `Split`. */
  function Join(parts: seq<string>, sep: char): string {
    if |parts| == 0 then ""
    else if |parts| == 1 then parts[0]
    else parts[0] + [sep] + Join(parts[1..], sep)
  }

  /** `s.split(sep)` for a one-character separator: never empty, even for "". */
  function Split(s: string, sep: char): (parts: seq<string>)
    ensures |parts| >= 1
    ensures forall k :: 0 <= k < |parts| ==> sep !in parts[k]
    decreases |s|
  {
    if sep in s then [s[..IndexOf(s, sep)]] + Split(s[IndexOf(s, sep) + 1..], sep)
    else [s]
  }

  /** `sep.join(s.split(sep)) == s`: splitting loses nothing. */
  lemma {:induction false} JoinSplit(s: string, sep: char)
    ensures Join(Split(s, sep), sep) == s
    decreases |s|
  {
    if sep in s {
      var i := IndexOf(s, sep);
      var rest := s[i + 1..];
      var tail := Split(rest, sep);
      SplitAtFirst(s, sep);
      JoinSplit(rest, sep);
      JoinCons(s[..i], tail, sep);
      assert s == s[..i] + [sep] + rest;
    }
  }

  /** `Join` unfolded once at the front. */
  lemma JoinCons(x: string, xs: seq<string>, sep: char)
    requires |xs| > 0
    ensures Join([x] + xs, sep) == x + [sep] + Join(xs, sep)
  {
    assert ([x] + xs)[1..] == xs;
  }

  /** `Split` unfolded once, at the first separator. */
  lemma SplitAtFirst(s: string, sep: char)
    requires sep in s
    ensures Split(s, sep) == [s[..IndexOf(s, sep)]] + Split(s[IndexOf(s, sep) + 1..], sep)
  {
  }

  /** The text before the first `c`, or all of `s` when there is none. */
  function Before(s: string, c: char): (r: string)
    ensures r <= s && c !in r
    ensures c in s ==> s == r + [c] + After(s, c)
    ensures c !in s ==> r == s
  {
    if c in s then s[..IndexOf(s, c)] else s
  }

  /** The text after the first `c`, or "" when there is none. */
  function After(s: string, c: char): (r: string)
    ensures forall x :: x in r ==> x in s
    ensures c !in s ==> r == ""
  {
    if c in s then s[IndexOf(s, c) + 1..] else ""
  }

  predicate EndsWith(s: string, suffix: string) {
    |suffix| <= |s| && s[|s| - |suffix|..] == suffix
  }

  /** `seg` is what `s.split(sep)[-1]` yields: the text after the last `sep`. */
  predicate IsLastSegment(s: string, sep: char, seg: string) {
    sep !in seg && (s == seg || EndsWith(s, [sep] + seg))
  }

  /** `s.split(sep)[-1]`: drop everything up to the first `sep` until none is left. */
  function LastSegment(s: string, sep: char): (seg: string)
    ensures IsLastSegment(s, sep, seg)
    decreases |s|
  {
    if sep in s then
      var i := IndexOf(s, sep);
      var seg := LastSegment(s[i + 1..], sep);
      assert s == s[..i] + [sep] + s[i + 1..];
      LastSegmentExtends(s[..i], sep, s[i + 1..], seg);
      seg
    else s
  }

  /** Putting text and a separator in front keeps the last segment. */
  lemma LastSegmentExtends(a: string, sep: char, rest: string, seg: string)
    requires IsLastSegment(rest, sep, seg)
    ensures IsLastSegment(a + [sep] + rest, sep, seg)
  {
    var s := a + [sep] + rest;
    if rest == seg {
      assert s[|s| - |seg| - 1..] == [sep] + seg;
    } else {
      assert s[|s| - |seg| - 1..] == rest[|rest| - |seg| - 1..];
    }
  }

  /** The last segment is a suffix of the string. */
  lemma LastSegmentIsSuffix(s: string, sep: char, seg: string)
    requires IsLastSegment(s, sep, seg)
    ensures s[|s| - |seg|..] == seg
  {
    if s != seg {
      assert s[|s| - |seg|..] == s[|s| - |seg| - 1..][1..];
    }
  }

  /** There is only one last segment: `IsLastSegment` pins it down. */
  lemma LastSegmentUnique(s: string, sep: char, a: string, b: string)
    requires IsLastSegment(s, sep, a) && IsLastSegment(s, sep, b)
    ensures a == b
  {
    LastSegmentIsSuffix(s, sep, a);
    LastSegmentIsSuffix(s, sep, b);
    if |a| < |b| {
      SeparatorInLongerSuffix(s, sep, a, b);
      assert false;
    } else if |b| < |a| {
      SeparatorInLongerSuffix(s, sep, b, a);
      assert false;
    } else {
      assert a == s[|s| - |a|..] == b;
    }
  }

  /** A suffix longer than a last segment reaches back over the separator before it. */
  lemma SeparatorInLongerSuffix(s: string, sep: char, a: string, b: string)
    requires IsLastSegment(s, sep, a)
    requires |a| < |b| <= |s| && s[|s| - |b|..] == b
    ensures sep in b
  {
    assert s != a;
    assert s[|s| - |a| - 1] == ([sep] + a)[0] == sep;
    assert b[|b| - |a| - 1] == s[|s| - |a| - 1];
  }

  /** An occurrence wholly inside `s[lo..hi]` is an occurrence in that slice. */
  lemma OccursInSlice(s: string, sub: string, at: int, lo: int, hi: int)
    requires OccursAt(s, sub, at)
    requires 0 <= lo <= at && at + |sub| <= hi <= |s|
    ensures OccursAt(s[lo..hi], sub, at - lo)
  {
    forall k | 0 <= k < |sub|
      ensures s[lo..hi][at - lo..at - lo + |sub|][k] == sub[k]
    {
      assert s[lo..hi][at - lo + k] == s[at + k] == s[at..at + |sub|][k];
    }
  }

  /** Text that lacks the first character of `sub` does not contain `sub`. */
  lemma AbsentFirstChar(s: string, sub: string)
    requires |sub| > 0 && sub[0] !in s
    ensures !Contains(s, sub)
  {
    forall i | 0 <= i <= |s| - |sub|
      ensures !OccursAt(s, sub, i)
    {
      assert s[i..i + |sub|][0] == s[i];
    }
  }

  lemma OccursWitness(s: string, sub: string, at: int)
    requires OccursAt(s, sub, at)
    ensures Contains(s, sub)
  {
  }

  /** Putting text in front keeps an occurrence. */
  lemma ContainsAfterPrefix(p: string, s: string, sub: string)
    requires Contains(s, sub)
    ensures Contains(p + s, sub)
  {
    var at :| 0 <= at <= |s| - |sub| && OccursAt(s, sub, at);
    assert (p + s)[at + |p|..at + |p| + |sub|] == s[at..at + |sub|];
    OccursWitness(p + s, sub, at + |p|);
  }

  /** A marker free of `sep` cannot straddle two segments: some segment of the split holds it. */
  lemma {:induction false} ContainsSurvivesSplit(s: string, sub: string, sep: char)
    requires Contains(s, sub)
    requires sep !in sub
    ensures exists k :: 0 <= k < |Split(s, sep)| && Contains(Split(s, sep)[k], sub)
    decreases |s|
  {
    if sep !in s {
      SplitWithoutSeparator(s, sep);
      assert Split(s, sep)[0] == s;
    } else {
      var i := IndexOf(s, sep);
      var at :| 0 <= at <= |s| - |sub| && OccursAt(s, sub, at);
      if at + |sub| <= i {
        ContainsInFirstPart(s, sub, sep, at);
      } else if at > i {
        var rest := s[i + 1..];
        OccursInSlice(s, sub, at, i + 1, |s|);
        OccursWitness(rest, sub, at - i - 1);
        ContainsSurvivesSplit(rest, sub, sep);
        var k :| 0 <= k < |Split(rest, sep)| && Contains(Split(rest, sep)[k], sub);
        ContainsInLaterPart(s, sub, sep, k);
      } else {
        StraddleMeetsSeparator(s, sub, at, i);
        assert false;
      }
    }
  }

  /** An occurrence that ends before the first separator lies in the first part. */
  lemma ContainsInFirstPart(s: string, sub: string, sep: char, at: int)
    requires sep in s && OccursAt(s, sub, at) && at + |sub| <= IndexOf(s, sep)
    ensures Contains(Split(s, sep)[0], sub)
  {
    var i := IndexOf(s, sep);
    SplitAtFirst(s, sep);
    assert Split(s, sep)[0] == s[..i];
    OccursInSlice(s, sub, at, 0, i);
    OccursWitness(s[..i], sub, at);
  }

  /** Part `k` of what follows the first separator is part `k + 1` of the whole. */
  lemma ContainsInLaterPart(s: string, sub: string, sep: char, k: int)
    requires sep in s
    requires 0 <= k < |Split(s[IndexOf(s, sep) + 1..], sep)|
    requires Contains(Split(s[IndexOf(s, sep) + 1..], sep)[k], sub)
    ensures k + 1 < |Split(s, sep)| && Contains(Split(s, sep)[k + 1], sub)
  {
    var tail := Split(s[IndexOf(s, sep) + 1..], sep);
    var parts := Split(s, sep);
    SplitAtFirst(s, sep);
    ElementOfCons(s[..IndexOf(s, sep)], tail, parts, k);
  }

  lemma ElementOfCons(x: string, xs: seq<string>, parts: seq<string>, k: int)
    requires parts == [x] + xs && 0 <= k < |xs|
    ensures k + 1 < |parts| && parts[k + 1] == xs[k]
  {
  }

  /** An occurrence covering index `i` holds the character at `i`. */
  lemma StraddleMeetsSeparator(s: string, sub: string, at: int, i: int)
    requires OccursAt(s, sub, at) && at <= i < at + |sub|
    ensures s[i] in sub
  {
    assert sub[i - at] == s[at..at + |sub|][i - at] == s[i];
  }

  /** `IndexOf` finds the first occurrence: any index with `c` and no `c` before it is that one. */
  lemma {:induction false} IndexOfUnique(s: string, c: char, j: nat)
    requires j < |s| && s[j] == c && c !in s[..j]
    ensures IndexOf(s, c) == j
  {
    if j > 0 {
      assert s[0] in s[..j];
      assert s[1..][..j - 1] == s[1..j];
      assert forall x :: x in s[1..j] ==> x in s[..j];
      IndexOfUnique(s[1..], c, j - 1);
    }
  }

  /** A prefix free of `c` followed by `c`: the first `c` is the one after the prefix. */
  lemma IndexOfAfterPrefix(a: string, c: char, b: string)
    requires c !in a
    ensures IndexOf(a + [c] + b, c) == |a|
    ensures Before(a + [c] + b, c) == a
    ensures After(a + [c] + b, c) == b
  {
    var s := a + [c] + b;
    assert s[..|a|] == a;
    IndexOfUnique(s, c, |a|);
    assert s[|a| + 1..] == b;
  }

  /** Without the separator, the split is the whole string. */
  lemma SplitWithoutSeparator(s: string, sep: char)
    requires sep !in s
    ensures Split(s, sep) == [s]
  {
  }
}

=== FILE: url_parse.dfy ===
/**
 * A simplified `urllib.parse.urlparse` and `parse_qs`, as far as
 * convert_to_zoom_protocol needs them.  The URL is cut at the first ':' when
 * "//" follows it (scheme and authority), the authority runs to the first of
 * '/', '?', '#', the fragment starts at the first '#', and the query at the
 * first '?' before it.  A query is split on '&', each field at its first '=';
 * fields without '=' or with an empty value are dropped as `parse_qs` drops
 * them.  Percent-decoding and '+' as space are not modelled.
 */
module UrlParse {
  import opened Wrappers
  import opened Text
  import opened Seqs

  /** The parts of a URL the core reads. */
  datatype SplitUrl = SplitUrl(netloc: string, path: string, query: string)

  predicate IsAuthorityDelimiter(c: char) {
    c == '/' || c == '?' || c == '#'
  }

  /** Where the authority of `s` (the text after "//") ends. */
  function AuthorityEnd(s: string): (k: nat)
    ensures k <= |s|
    ensures forall j :: 0 <= j < k ==> !IsAuthorityDelimiter(s[j])
    ensures k < |s| ==> IsAuthorityDelimiter(s[k])
  {
    match FindFirst(s, IsAuthorityDelimiter)
    case Some(k) => k
    case None => |s|
  }

  /** The first ':' of the URL is followed by "//", so a host follows the scheme. */
  predicate HasAuthority(url: string) {
    ':' in url && "//" <= url[IndexOf(url, ':') + 1..]
  }

  /** Where the authority starts: after "<scheme>://", or nowhere (index 0) without one. */
  function AuthorityStart(url: string): (i: nat)
    ensures i <= |url|
  {
    if HasAuthority(url) then IndexOf(url, ':') + 3 else 0
  }

  /** The text after "//" cut where the authority ends. */
  function CutAuthority(s: string): (p: (string, string))
    ensures p.0 + p.1 == s
    ensures forall j :: 0 <= j < |p.0| ==> !IsAuthorityDelimiter(p.0[j])
    ensures |p.1| > 0 ==> IsAuthorityDelimiter(p.1[0])
  {
    var k := AuthorityEnd(s);
    assert s[..k] + s[k..] == s;
    (s[..k], s[k..])
  }

  /** The authority of the URL and the text after it; no authority and the whole URL without one. */
  function AuthorityAndRest(url: string): (p: (string, string))
    ensures !HasAuthority(url) ==> p == ("", url)
    ensures !HasAuthority(url) ==> p.0 == ""
    ensures p.0 + p.1 == url[AuthorityStart(url)..]
    ensures forall j :: 0 <= j < |p.0| ==> !IsAuthorityDelimiter(p.0[j])
    ensures HasAuthority(url) && |p.1| > 0 ==> IsAuthorityDelimiter(p.1[0])
  {
    if HasAuthority(url) then CutAuthority(url[AuthorityStart(url)..])
    else assert url[0..] == url; ("", url)
  }

  /**
   * `netloc` is the authority of `url`: it starts where `AuthorityStart` says,
   * holds no '/', '?' or '#', and is followed by one of them or by nothing.
   */
  predicate IsAuthorityOf(url: string, netloc: string) {
    var s := AuthorityStart(url);
    && s + |netloc| <= |url| && url[s..s + |netloc|] == netloc
    && (forall j :: 0 <= j < |netloc| ==> !IsAuthorityDelimiter(netloc[j]))
    && (HasAuthority(url) && s + |netloc| < |url| ==> IsAuthorityDelimiter(url[s + |netloc|]))
  }

  /**
   * `path` and `query` are what `rest` holds before its first '#': the path,
   * then '?' and the query when there is a '?'.
   */
  predicate IsPathAndQueryOf(rest: string, path: string, query: string) {
    var head := Before(rest, '#');
    if '?' in head then head == path + "?" + query else head == path && query == ""
  }

  /** After the authority `netloc` of `url` come `path` and `query`. */
  predicate IsPathAndQueryAfter(url: string, netloc: string, path: string, query: string) {
    var s := AuthorityStart(url);
    s + |netloc| <= |url| && IsPathAndQueryOf(url[s + |netloc|..], path, query)
  }

  /** The authority and the rest, placed in the URL. */
  lemma AuthorityPlacement(url: string)
    ensures var p := AuthorityAndRest(url); var s := AuthorityStart(url);
      IsAuthorityOf(url, p.0) && url[s + |p.0|..] == p.1
  {
    var p := AuthorityAndRest(url);
    var s := AuthorityStart(url);
    var tail := url[s..];
    assert tail[..|p.0|] == p.0 && tail[|p.0|..] == p.1;
    assert tail[..|p.0|] == url[s..s + |p.0|];
    if HasAuthority(url) && s + |p.0| < |url| {
      assert url[s + |p.0|] == p.1[0];
    }
  }

  /** The text after the authority cut into the path and the query; the fragment is dropped. */
  function PathAndQuery(rest: string): (pq: (string, string))
    ensures '?' !in pq.0 && '#' !in pq.0 && '#' !in pq.1
    ensures IsPathAndQueryOf(rest, pq.0, pq.1)
  {
    var head := Before(rest, '#');
    (Before(head, '?'), After(head, '?'))
  }

  /** `urlparse(url)`: the authority, the path and the query, which the URL is made of. */
  function UrlSplit(url: string): (u: SplitUrl)
    ensures '?' !in u.path && '#' !in u.path && '#' !in u.query
    ensures !HasAuthority(url) ==> u.netloc == ""
    ensures IsAuthorityOf(url, u.netloc)
    ensures IsPathAndQueryAfter(url, u.netloc, u.path, u.query)
  {
    var p := AuthorityAndRest(url);
    AuthorityPlacement(url);
    assert !HasAuthority(url) ==> p.0 == "";
    var pq := PathAndQuery(p.1);
    PathAndQueryPlacement(url, p.0, p.1, pq.0, pq.1);
    SplitUrl(p.0, pq.0, pq.1)
  }

  lemma PathAndQueryPlacement(url: string, netloc: string, rest: string, path: string, query: string)
    requires AuthorityStart(url) + |netloc| <= |url| && url[AuthorityStart(url) + |netloc|..] == rest
    requires IsPathAndQueryOf(rest, path, query)
    ensures IsPathAndQueryAfter(url, netloc, path, query)
  {
  }

  /** `field` is `name=value` with a non-empty value, a field `parse_qs` keeps under `name`. */
  predicate IsField(field: string, name: string) {
    '=' in field && Before(field, '=') == name && After(field, '=') != ""
  }

  /** The query has a field `name` that `parse_qs` keeps. */
  predicate HasParam(query: string, name: string) {
    exists k :: 0 <= k < |Split(query, '&')| && IsField(Split(query, '&')[k], name)
  }

  /** Field `k` is the first field `name` that `parse_qs` keeps. */
  predicate IsFirstField(fields: seq<string>, name: string, k: int) {
    0 <= k < |fields| && IsField(fields[k], name) && forall j :: 0 <= j < k ==> !IsField(fields[j], name)
  }

  /**
   * `r` is what `parse_qs` gives for `name` from these fields: a value exactly
   * when some field is kept under `name`, and then the first such field's.
   */
  predicate IsFieldValue(fields: seq<string>, name: string, r: Option<string>) {
    && (r.Some? <==> exists k :: 0 <= k < |fields| && IsField(fields[k], name))
    && (r.Some? ==> exists k :: 0 <= k < |fields| && IsFirstField(fields, name, k) && r.value == After(fields[k], '='))
  }

  /** The value of the first field kept under `name`, reading the fields left to right. */
  function FieldValue(fields: seq<string>, name: string): (r: Option<string>)
    ensures IsFieldValue(fields, name, r)
    decreases |fields|
  {
    if |fields| == 0 then None
    else if IsField(fields[0], name) then
      assert IsFirstField(fields, name, 0);
      Some(After(fields[0], '='))
    else
      var r := FieldValue(fields[1..], name);
      FieldValueSkips(fields, name, r);
      r
  }

  /** A leading field not kept under `name` changes nothing. */
  lemma FieldValueSkips(fields: seq<string>, name: string, r: Option<string>)
    requires |fields| > 0 && !IsField(fields[0], name)
    requires IsFieldValue(fields[1..], name, r)
    ensures IsFieldValue(fields, name, r)
  {
    KeptFieldInTail(fields, name);
    if r.Some? {
      var k :| 0 <= k < |fields[1..]| && IsFirstField(fields[1..], name, k) && r.value == After(fields[1..][k], '=');
      FirstFieldInTail(fields, name, k);
    }
  }

  /** Past a leading field not kept under `name`, some field is kept exactly when one is in the tail. */
  lemma KeptFieldInTail(fields: seq<string>, name: string)
    requires |fields| > 0 && !IsField(fields[0], name)
    ensures (exists k :: 0 <= k < |fields| && IsField(fields[k], name))
        <==> (exists k :: 0 <= k < |fields[1..]| && IsField(fields[1..][k], name))
  {
    if exists k :: 0 <= k < |fields| && IsField(fields[k], name) {
      var k :| 0 <= k < |fields| && IsField(fields[k], name);
      assert fields[1..][k - 1] == fields[k];
    }
  }

  /** The first kept field of the tail is the first kept field of the whole, one place on. */
  lemma FirstFieldInTail(fields: seq<string>, name: string, k: int)
    requires |fields| > 0 && !IsField(fields[0], name)
    requires IsFirstField(fields[1..], name, k)
    ensures IsFirstField(fields, name, k + 1) && fields[k + 1] == fields[1..][k]
  {
    forall j | 0 <= j < k + 1
      ensures !IsField(fields[j], name)
    {
      if j > 0 {
        assert fields[j] == fields[1..][j - 1];
      }
    }
  }

  /** A value taken from fields without '&' is non-empty and has no '&'. */
  lemma FieldValueHasNoAmpersand(fields: seq<string>, name: string, r: Option<string>)
    requires IsFieldValue(fields, name, r)
    requires forall k :: 0 <= k < |fields| ==> '&' !in fields[k]
    ensures r.Some? ==> r.value != "" && '&' !in r.value
  {
    if r.Some? {
      var k :| 0 <= k < |fields| && IsFirstField(fields, name, k) && r.value == After(fields[k], '=');
    }
  }

  /**
   * `parse_qs(query)[name][0]`: the value of the first kept field `name`, or
   * `None` when `name not in parse_qs(query)`.
   */
  function QueryValue(query: string, name: string): (r: Option<string>)
    ensures r.Some? <==> HasParam(query, name)
    ensures r.Some? ==> r.value != "" && '&' !in r.value
    ensures r.Some? ==>
      exists k :: IsFirstField(Split(query, '&'), name, k) && r.value == After(Split(query, '&')[k], '=')
  {
    var fields := Split(query, '&');
    var r := FieldValue(fields, name);
    FieldValueHasNoAmpersand(fields, name, r);
    r
  }

  /** After "<scheme>:" comes "//": the URL has an authority, which starts right after the slashes. */
  lemma SchemeThenAuthority(scheme: string, after: string)
    requires ':' !in scheme
    ensures var url := scheme + "://" + after;
      HasAuthority(url) && url[IndexOf(url, ':') + 3..] == after
  {
    var url := scheme + "://" + after;
    assert url == scheme + [':'] + ("//" + after);
    IndexOfAfterPrefix(scheme, ':', "//" + after);
    assert url[|scheme| + 3..] == after;
  }

  /** A host free of '/', '?' and '#' followed by a path: the authority is the host. */
  lemma AuthorityIsHost(host: string, rest: string)
    requires forall j :: 0 <= j < |host| ==> !IsAuthorityDelimiter(host[j])
    requires |rest| > 0 && rest[0] == '/'
    ensures AuthorityEnd(host + rest) == |host|
  {
    var s := host + rest;
    assert s[|host|] == '/';
    assert forall j :: 0 <= j < |host| ==> s[j] == host[j];
  }

  /** A URL whose authority ends where `host` ends: `host` is the authority and `rest` follows it. */
  lemma UrlSplitOfParts(url: string, host: string, rest: string)
    requires HasAuthority(url)
    requires url[IndexOf(url, ':') + 3..] == host + rest
    requires AuthorityEnd(host + rest) == |host|
    ensures var beforeFragment := Before(rest, '#');
      UrlSplit(url) == SplitUrl(host, Before(beforeFragment, '?'), After(beforeFragment, '?'))
  {
    AuthorityOfParts(url, host, rest);
  }

  lemma AuthorityOfParts(url: string, host: string, rest: string)
    requires HasAuthority(url)
    requires url[IndexOf(url, ':') + 3..] == host + rest
    requires AuthorityEnd(host + rest) == |host|
    ensures AuthorityAndRest(url) == (host, rest)
  {
    var after := host + rest;
    assert AuthorityStart(url) == IndexOf(url, ':') + 3;
    assert url[AuthorityStart(url)..] == after;
    assert after[..|host|] == host && after[|host|..] == rest;
    assert CutAuthority(after) == (host, rest);
  }

  /** `<path>?<query>` without '#': the path is before the '?', the query after it. */
  lemma PathThenQuery(path: string, query: string)
    requires '?' !in path && '#' !in path && '#' !in query
    ensures var rest := path + "?" + query;
      Before(rest, '#') == rest && Before(rest, '?') == path && After(rest, '?') == query
  {
    var rest := path + "?" + query;
    assert rest == path + ['?'] + query;
    assert '#' !in rest;
    IndexOfAfterPrefix(path, '?', query);
  }

  /** `<scheme>://<host><path>?<query>` splits into its host, path and query. */
  lemma UrlSplitOfLink(scheme: string, host: string, path: string, query: string)
    requires ':' !in scheme
    requires forall j :: 0 <= j < |host| ==> !IsAuthorityDelimiter(host[j])
    requires |path| > 0 && path[0] == '/' && '?' !in path && '#' !in path && '#' !in query
    ensures UrlSplit(scheme + "://" + host + path + "?" + query) == SplitUrl(host, path, query)
  {
    var url := scheme + "://" + host + path + "?" + query;
    var rest := path + "?" + query;
    var after := host + rest;
    assert url == scheme + "://" + after;
    SchemeThenAuthority(scheme, after);
    AuthorityIsHost(host, rest);
    PathThenQuery(path, query);
    UrlSplitOfParts(url, host, rest);
  }

  /** `<scheme>://<host><path>` splits into its host, its path and an empty query. */
  lemma UrlSplitOfQuerylessLink(scheme: string, host: string, path: string)
    requires ':' !in scheme
    requires forall j :: 0 <= j < |host| ==> !IsAuthorityDelimiter(host[j])
    requires |path| > 0 && path[0] == '/' && '?' !in path && '#' !in path
    ensures UrlSplit(scheme + "://" + host + path) == SplitUrl(host, path, "")
  {
    var url := scheme + "://" + host + path;
    var after := host + path;
    assert url == scheme + "://" + after;
    SchemeThenAuthority(scheme, after);
    AuthorityIsHost(host, path);
    UrlSplitOfParts(url, host, path);
  }

  /** A query made of the one field `name=value` yields `value` for `name`. */
  lemma QueryValueOfSingleField(name: string, value: string)
    requires '=' !in name && '&' !in name && '&' !in value && value != ""
    ensures QueryValue(name + "=" + value, name) == Some(value)
  {
    var field := name + "=" + value;
    assert field == name + ['='] + value;
    IndexOfAfterPrefix(name, '=', value);
    SplitWithoutSeparator(field, '&');
    assert IsField(Split(field, '&')[0], name);
  }

  /**
   * `parse_qs` reads the fields left to right: a leading field `name` decides
   * the value, any other leading field is skipped.
   */
  lemma QueryValueOfFields(field: string, rest: string, name: string)
    requires '&' !in field
    ensures QueryValue(field + "&" + rest, name)
         == if IsField(field, name) then Some(After(field, '=')) else QueryValue(rest, name)
  {
    var query := field + "&" + rest;
    assert query == field + ['&'] + rest;
    IndexOfAfterPrefix(field, '&', rest);
    SplitAtFirst(query, '&');
    var fields := Split(query, '&');
    assert fields == [field] + Split(rest, '&');
    assert fields[1..] == Split(rest, '&');
  }

  /** The empty query has no fields. */
  lemma EmptyQueryHasNoParam(name: string)
    ensures !HasParam("", name)
  {
    SplitWithoutSeparator("", '&');
  }
}

=== FILE: wrappers.dfy ===
/** Option and Result values, and the Python exceptions the core can raise. */
module Wrappers {

  /** A value that may be absent; Python's `None` is `None`. */
  datatype Option<+T> = None | Some(value: T) {

    /** The wrapped value, or `default` when absent (Python's `d.get(k, default)`). */
    function GetOr(default: T): T {
      match this
      case Some(v) => v
      case None => default
    }
  }

  /** Either a computed value or the exception that ended the computation. */
  datatype Result<+R, +E> = Success(value: R) | Failure(error: E)

  /** The exceptions the modelled code can let escape. */
  datatype Fault =
    | StopIteration  // `next(generator)` with no default on an exhausted generator
    | TypeError      // comparing `None` with a datetime, or `fromisoformat(None)`
    | ValueError     // `fromisoformat` on text it cannot read
    | IndexError     // `events[0]` on an empty list
}

=== FILE: zoom.dfy ===
/**
 * zoom.py: the all-day test, the Zoom link extractor, the rewrite of a Zoom
 * web link into a `zoommtg:` link, and the older "which event to join" rule.
 */
module Zoom {
  import opened Wrappers
  import opened Text
  import opened Seqs
  import opened Calendar
  import opened UrlParse
  import Constants

  /** Join the second event instead of the first when it starts within this many minutes. */
  const SkipFirstIfNextStartsWithin: int := 3

  /** `timedelta(minutes=SkipFirstIfNextStartsWithin)` in microseconds. */
  const SkipWindow: int := SkipFirstIfNextStartsWithin * Constants.MicrosPerMinute

  /** The text that marks a Zoom link in a location or an entry-point URI. */
  const ZoomMarker: string := "zoom.us"

  /**
   * Every rewritten link starts with this text.  It names the company Zoom
   * sub-domain, "ellevationeducation", whatever host the input link had.
   */
  const JoinPrefix: string := "zoommtg://ellevationeducation.zoom.us/join?action=join&confno="

  /**
   * An all-day event: its start carries a "date" key rather than only "dateTime".
   * Such an event always has a start text to read.
   */
  function IsDayOnly(event: RawEvent): (b: bool)
    ensures b <==> "date" in event.start
    ensures b ==> RawDatetime(event.start).Some?
    ensures !b && "dateTime" !in event.start ==> RawDatetime(event.start).None?
  {
    "date" in event.start
  }

  /** A timed event: its start, if it has one, is read from "dateTime" alone. */
  function IsNotDayOnly(event: RawEvent): (b: bool)
    ensures b != IsDayOnly(event)
    ensures b ==>
      RawDatetime(event.start) == if "dateTime" in event.start then Some(event.start["dateTime"]) else None
  {
    !IsDayOnly(event)
  }

  /** `"zoom.us" in s` */
  predicate IsZoomText(s: string) {
    Contains(s, ZoomMarker)
  }

  /** `"zoom.us" in ep.get("uri", "")` */
  predicate IsZoomEntryPoint(ep: EntryPoint) {
    IsZoomText(ep.uri.GetOr(""))
  }

  /** The entry points hold a Zoom URI. */
  predicate HasZoomEntryPoint(event: RawEvent) {
    exists k :: 0 <= k < |EntryPoints(event)| && IsZoomEntryPoint(EntryPoints(event)[k])
  }

  /** The marker has no comma, so it never straddles two comma-separated segments. */
  lemma MarkerHasNoComma()
    ensures ',' !in ZoomMarker
  {
    assert ZoomMarker == ['z', 'o', 'o', 'm', '.', 'u', 's'];
  }

  /**
   * `get_zoom_link(event)`: `Success(Some(link))` for a link, `Success(None)`
   * for none, `Failure(StopIteration)` where `next(...)` finds nothing.
   */
  function GetZoomLink(event: RawEvent): (r: Result<Option<string>, Fault>)
    ensures r.Success? && r.value.Some? ==> IsZoomText(r.value.value)
    ensures r.Failure? ==> r.error == StopIteration
  {
    var loc := Location(event);
    if IsZoomText(loc) then
      if ',' in loc then
        var segments := Split(loc, ',');
        match FindFirst(segments, IsZoomText)
        case Some(k) => Success(Some(segments[k]))
        case None => Failure(StopIteration)
      else Success(Some(loc))
    else
      var eps := EntryPoints(event);
      if |eps| > 0 then
        // `found` is a dict holding a "uri" key, so `if found:` always takes its first branch
        match FindFirst(eps, IsZoomEntryPoint)
        case Some(k) => Success(eps[k].uri)
        case None => Failure(StopIteration)
      else Success(None)
  }

  /** A location naming Zoom decides the link on its own: the entry points are never read. */
  lemma LocationFirst(event: RawEvent, otherEntryPoints: Option<seq<EntryPoint>>)
    requires IsZoomText(Location(event))
    ensures GetZoomLink(event) == GetZoomLink(event.(entryPoints := otherEntryPoints))
    ensures ',' !in Location(event) ==> GetZoomLink(event) == Success(Some(Location(event)))
    ensures ',' in Location(event) ==>
      var segments := Split(Location(event), ',');
      exists k :: IsFirstAt(segments, IsZoomText, k) && GetZoomLink(event) == Success(Some(segments[k]))
  {
    var loc := Location(event);
    if ',' in loc {
      MarkerHasNoComma();
      ContainsSurvivesSplit(loc, ZoomMarker, ',');
    }
  }

  /**
   * A location "<place>,<link>" whose place does not name Zoom yields the
   * text after the comma exactly as it stands, leading space included.
   */
  lemma LocationSegmentAfterComma(event: RawEvent, place: string, link: string)
    requires event.location == Some(place + "," + link)
    requires ',' !in place && ',' !in link
    requires !IsZoomText(place) && IsZoomText(link)
    ensures GetZoomLink(event) == Success(Some(link))
  {
    var loc := place + "," + link;
    assert loc == place + [','] + link;
    ContainsAfterPrefix(place + ",", link, ZoomMarker);
    SplitAtFirst(loc, ',');
    IndexOfAfterPrefix(place, ',', link);
    SplitWithoutSeparator(link, ',');
    var segments := Split(loc, ',');
    assert segments == [place, link];
    assert FindFirst(segments, IsZoomText) == Some(1);
  }

  /** A room name before the comma: the link keeps the space that followed the comma. */
  lemma LocationExample(event: RawEvent)
    requires event.location == Some("Room 4, https://zoom.us/j/1")
    ensures GetZoomLink(event) == Success(Some(" https://zoom.us/j/1"))
  {
    ExampleLocationParts();
    ExampleSegmentIsZoom();
    LocationSegmentAfterComma(event, "Room 4", " https://zoom.us/j/1");
  }

  lemma ExampleLocationParts()
    ensures "Room 4, https://zoom.us/j/1" == "Room 4" + "," + " https://zoom.us/j/1"
  {
    assert "Room 4" + "," == "Room 4,";
  }

  lemma ExampleSegmentIsZoom()
    ensures IsZoomText(" https://zoom.us/j/1") && !IsZoomText("Room 4")
    ensures ',' !in "Room 4" && ',' !in " https://zoom.us/j/1"
  {
    assert OccursAt(" https://zoom.us/j/1", ZoomMarker, 9);
  }

  /** Without Zoom in the location, the link comes from the first Zoom entry point, if any. */
  lemma EntryPointFallback(event: RawEvent)
    requires !IsZoomText(Location(event))
    ensures |EntryPoints(event)| == 0 ==> GetZoomLink(event) == Success(None)
    ensures HasZoomEntryPoint(event) ==>
      exists k :: IsFirstAt(EntryPoints(event), IsZoomEntryPoint, k)
        && GetZoomLink(event) == Success(EntryPoints(event)[k].uri)
        && EntryPoints(event)[k].uri.Some?
    ensures |EntryPoints(event)| > 0 && !HasZoomEntryPoint(event) ==>
      GetZoomLink(event) == Failure(StopIteration)
  {
    var eps := EntryPoints(event);
    if HasZoomEntryPoint(event) {
      var k := FindFirst(eps, IsZoomEntryPoint).value;
      assert IsFirstAt(eps, IsZoomEntryPoint, k);
    }
  }

  /**
   * The three outcomes of the extractor: a link exactly when the location or
   * an entry point names Zoom, no link exactly when neither does and there
   * are no entry points, and StopIteration in the remaining case.
   */
  lemma GetZoomLinkOutcome(event: RawEvent)
    ensures var r := GetZoomLink(event);
      r.Success? && r.value.Some? <==> IsZoomText(Location(event)) || HasZoomEntryPoint(event)
    ensures GetZoomLink(event) == Success(None) <==>
      !IsZoomText(Location(event)) && |EntryPoints(event)| == 0
    ensures GetZoomLink(event).Failure? <==>
      !IsZoomText(Location(event)) && |EntryPoints(event)| > 0 && !HasZoomEntryPoint(event)
  {
    if IsZoomText(Location(event)) {
      LocationFirst(event, None);
    } else {
      EntryPointFallback(event);
    }
  }

  /**
   * The extractor cannot tell an absent key from its default: no location
   * behaves like an empty one, and no conference data like an empty list of
   * entry points.
   */
  lemma AbsentKeysReadAsDefaults(event: RawEvent)
    ensures GetZoomLink(event.(location := None)) == GetZoomLink(event.(location := Some("")))
    ensures GetZoomLink(event.(entryPoints := None)) == GetZoomLink(event.(entryPoints := Some([])))
  {
  }

  /** `has_zoom_link(event)`: whether a link was found; the StopIteration passes through. */
  function HasZoomLink(event: RawEvent): (r: Result<bool, Fault>)
    ensures r == Success(true) <==> IsZoomText(Location(event)) || HasZoomEntryPoint(event)
    ensures r == Success(false) <==> !IsZoomText(Location(event)) && |EntryPoints(event)| == 0
    ensures r.Failure? <==>
      !IsZoomText(Location(event)) && |EntryPoints(event)| > 0 && !HasZoomEntryPoint(event)
  {
    GetZoomLinkOutcome(event);
    match GetZoomLink(event)
    case Success(link) => Success(link.Some?)
    case Failure(f) => Failure(f)
  }

  /** The `zoommtg:` link for a meeting number and, when there is one, its password. */
  function JoinLink(confno: string, pwd: Option<string>): (r: string)
    ensures JoinPrefix <= r
  {
    match pwd
    case Some(p) => JoinPrefix + confno + "&pwd=" + p
    case None => JoinPrefix + confno
  }

  /** Where the meeting number and the password sit in a `JoinLink`. */
  lemma JoinLinkLayout(confno: string, pwd: Option<string>)
    ensures pwd.None? ==> JoinLink(confno, pwd)[|JoinPrefix|..] == confno
    ensures pwd.Some? ==>
      var r := JoinLink(confno, pwd);
      var suffix := "&pwd=" + pwd.value;
      EndsWith(r, suffix) && r[|JoinPrefix|..|r| - |suffix|] == confno
  {
    if pwd.Some? {
      var r := JoinLink(confno, pwd);
      var suffix := "&pwd=" + pwd.value;
      assert r == JoinPrefix + confno + suffix;
    }
  }

  /**
   * `convert_to_zoom_protocol(url)`: the fixed join prefix, then `confno`
   * (the last segment of the path), then "&pwd=" and the first `pwd` value
   * of the query, when it has one.
   */
  function ConvertToZoomProtocol(url: string): (r: string)
    ensures JoinPrefix <= r
  {
    var u := UrlSplit(url);
    JoinLink(LastSegment(u.path, '/'), QueryValue(u.query, "pwd"))
  }

  /**
   * What follows the join prefix: the last segment of the path, then
   * "&pwd=" and the password exactly when the query has a `pwd` field.
   */
  lemma ConvertLayout(url: string)
    ensures var r := ConvertToZoomProtocol(url); var u := UrlSplit(url);
      !HasParam(u.query, "pwd") ==> IsLastSegment(u.path, '/', r[|JoinPrefix|..])
    ensures var r := ConvertToZoomProtocol(url); var u := UrlSplit(url);
      HasParam(u.query, "pwd") ==>
        var suffix := "&pwd=" + QueryValue(u.query, "pwd").value;
        EndsWith(r, suffix) && IsLastSegment(u.path, '/', r[|JoinPrefix|..|r| - |suffix|])
  {
    var u := UrlSplit(url);
    JoinLinkLayout(LastSegment(u.path, '/'), QueryValue(u.query, "pwd"));
  }

  /**
   * A web join link `<scheme>://<host>/j/<confno>?pwd=<pwd>` becomes
   * `zoommtg://ellevationeducation.zoom.us/join?action=join&confno=<confno>&pwd=<pwd>`,
   * whatever its host.
   */
  lemma ConvertJoinLink(scheme: string, host: string, confno: string, pwd: string)
    requires ':' !in scheme
    requires forall j :: 0 <= j < |host| ==> !IsAuthorityDelimiter(host[j])
    requires '/' !in confno && '?' !in confno && '#' !in confno
    requires pwd != "" && '&' !in pwd && '#' !in pwd
    ensures ConvertToZoomProtocol(scheme + "://" + host + "/j/" + confno + "?pwd=" + pwd)
         == JoinPrefix + confno + "&pwd=" + pwd
  {
    var url := scheme + "://" + host + "/j/" + confno + "?pwd=" + pwd;
    var path := "/j/" + confno;
    var query := "pwd" + "=" + pwd;
    LastSegmentOfJoinPath(confno);
    QueryValueOfSingleField("pwd", pwd);
    JoinLinkSplit(scheme, host, confno, pwd);
    ConvertOfParts(url, host, path, query, confno, Some(pwd));
  }

  /** The rewrite reads only the path and the query of the split URL. */
  lemma ConvertOfParts(url: string, host: string, path: string, query: string, confno: string, pwd: Option<string>)
    requires UrlSplit(url) == SplitUrl(host, path, query)
    requires LastSegment(path, '/') == confno && QueryValue(query, "pwd") == pwd
    ensures ConvertToZoomProtocol(url) == JoinLink(confno, pwd)
  {
  }

  lemma JoinLinkSplit(scheme: string, host: string, confno: string, pwd: string)
    requires ':' !in scheme
    requires forall j :: 0 <= j < |host| ==> !IsAuthorityDelimiter(host[j])
    requires '/' !in confno && '?' !in confno && '#' !in confno
    requires '#' !in pwd
    ensures UrlSplit(scheme + "://" + host + "/j/" + confno + "?pwd=" + pwd)
         == SplitUrl(host, "/j/" + confno, "pwd" + "=" + pwd)
  {
    var path := "/j/" + confno;
    var query := "pwd" + "=" + pwd;
    assert scheme + "://" + host + "/j/" + confno + "?pwd=" + pwd
        == scheme + "://" + host + path + "?" + query;
    UrlSplitOfLink(scheme, host, path, query);
  }

  /** Without a query, `<scheme>://<host>/j/<confno>` becomes the join prefix and `confno`. */
  lemma ConvertJoinLinkWithoutPassword(scheme: string, host: string, confno: string)
    requires ':' !in scheme
    requires forall j :: 0 <= j < |host| ==> !IsAuthorityDelimiter(host[j])
    requires '/' !in confno && '?' !in confno && '#' !in confno
    ensures ConvertToZoomProtocol(scheme + "://" + host + "/j/" + confno) == JoinPrefix + confno
  {
    var path := "/j/" + confno;
    var url := scheme + "://" + host + "/j/" + confno;
    assert url == scheme + "://" + host + path;
    UrlSplitOfQuerylessLink(scheme, host, path);
    LastSegmentOfJoinPath(confno);
    EmptyQueryHasNoParam("pwd");
    ConvertOfParts(url, host, path, "", confno, None);
  }

  /** The last segment of "/j/<confno>" is `confno`. */
  lemma LastSegmentOfJoinPath(confno: string)
    requires '/' !in confno
    ensures LastSegment("/j/" + confno, '/') == confno
  {
    var path := "/j/" + confno;
    assert path[|path| - |confno| - 1..] == ['/'] + confno;
    LastSegmentUnique(path, '/', LastSegment(path, '/'), confno);
  }

  /** The docstring's own example. */
  lemma ConvertDocstringExample()
    ensures ConvertToZoomProtocol("https://ellevationeducation.zoom.us/j/1234?pwd=abcd")
         == "zoommtg://ellevationeducation.zoom.us/join?action=join&confno=1234&pwd=abcd"
  {
    ExampleHostHasNoDelimiter();
    ExampleUrlParts();
    ExampleLinkParts();
    ConvertJoinLink("https", "ellevationeducation.zoom.us", "1234", "abcd");
  }

  lemma ExampleHostHasNoDelimiter()
    ensures forall j :: 0 <= j < |"ellevationeducation.zoom.us"| ==>
      !IsAuthorityDelimiter("ellevationeducation.zoom.us"[j])
    ensures ':' !in "https" && '/' !in "1234" && '?' !in "1234" && '#' !in "1234"
    ensures '&' !in "abcd" && '#' !in "abcd"
  {
  }

  lemma ExampleUrlParts()
    ensures "https" + "://" + "ellevationeducation.zoom.us" + "/j/" + "1234" + "?pwd=" + "abcd"
        == "https://ellevationeducation.zoom.us/j/1234?pwd=abcd"
  {
    ExampleUrlHost();
    assert "https://ellevationeducation.zoom.us" + "/j/" == "https://ellevationeducation.zoom.us/j/";
    assert "https://ellevationeducation.zoom.us/j/" + "1234" == "https://ellevationeducation.zoom.us/j/1234";
    assert "https://ellevationeducation.zoom.us/j/1234" + "?pwd=" == "https://ellevationeducation.zoom.us/j/1234?pwd=";
  }

  lemma ExampleUrlHost()
    ensures "https" + "://" + "ellevationeducation.zoom.us" == "https://ellevationeducation.zoom.us"
  {
    assert "https" + "://" == "https://";
  }

  lemma ExampleLinkParts()
    ensures JoinPrefix + "1234" + "&pwd=" + "abcd"
        == "zoommtg://ellevationeducation.zoom.us/join?action=join&confno=1234&pwd=abcd"
  {
  }

  /**
   * `find_event_to_join(now, events)`: the first event, unless the second one
   * starts less than three minutes after `now` (or has already started).  An
   * empty list, or an unreadable start of the second event, raises.
   */
  function FindEventToJoin(now: Instant, events: seq<RawEvent>, fromIso: IsoParser): (r: Result<RawEvent, Fault>)
    ensures r == Failure(IndexError) <==> |events| == 0
    ensures r.Success? ==> r.value == events[0] || (|events| > 1 && r.value == events[1])
    ensures |events| == 1 ==> r == Success(events[0])
    ensures r.Failure? && |events| > 0 ==>
      |events| > 1
      && (r.error == TypeError <==> RawDatetime(events[1].start).None?)
      && (r.error == ValueError <==> RawDatetime(events[1].start).Some?)
    ensures |events| > 1 && RawDatetime(events[1].start).None? ==> r == Failure(TypeError)
    ensures |events| > 1 && RawDatetime(events[1].start).Some? && fromIso(RawDatetime(events[1].start).value).None? ==>
      r == Failure(ValueError)
  {
    if |events| == 0 then Failure(IndexError)
    else if |events| > 1 then
      var second := events[1];
      match RawDatetime(second.start)
      case None => Failure(TypeError)
      case Some(text) =>
        match fromIso(text)
        case None => Failure(ValueError)
        case Some(time) =>
          if time - now < SkipWindow then Success(second) else Success(events[0])
    else Success(events[0])
  }

  /** With a readable second start, the second event wins exactly when it starts within the window. */
  lemma FindEventToJoinSwitch(now: Instant, events: seq<RawEvent>, fromIso: IsoParser, start: Instant)
    requires |events| > 1
    requires RawDatetime(events[1].start).Some?
    requires fromIso(RawDatetime(events[1].start).value) == Some(start)
    ensures start - now < SkipWindow ==> FindEventToJoin(now, events, fromIso) == Success(events[1])
    ensures start - now >= SkipWindow ==> FindEventToJoin(now, events, fromIso) == Success(events[0])
    ensures start <= now ==> FindEventToJoin(now, events, fromIso) == Success(events[1])
  {
  }

  /** Events after the second never change the choice. */
  lemma FindEventToJoinIgnoresLater(now: Instant, events: seq<RawEvent>, fromIso: IsoParser)
    requires |events| >= 2
    ensures FindEventToJoin(now, events, fromIso) == FindEventToJoin(now, events[..2], fromIso)
  {
  }
}

=== FILE: zoom_alfred.dfy ===
/**
 * zoom-alfred.py: turning raw events into `MyEvent` records with their
 * "in progress" and "next joinable" flags, the filter of the list command,
 * and the policy that picks the one meeting to join.
 */
module ZoomAlfred {
  import opened Wrappers
  import opened Text
  import opened Seqs
  import opened Calendar
  import Constants
  import Zoom

  /** What the calendar offers to join. */
  datatype NextMeetingOptions =
    | FoundNextMeeting  // exactly one meeting to join
    | MultipleOptions   // several candidates, or none that stands out
    | NoOptions         // no candidate at all

  /** The normalised event; the icon, a presentation detail, is not kept. */
  datatype MyEvent = MyEvent(
    id: string,
    start: Option<Instant>,
    summary: string,
    isNotDayEvent: bool,
    inProgress: bool,
    isNextJoinable: bool,
    zoomLink: Option<string>)

  /**
   * The zoom-alfred.py copy of `get_zoom_link`, which differs from zoom.py's
   * only in where its debug text goes: a Zoom link when the location or an
   * entry point names Zoom, no link when neither does and there are no entry
   * points, and StopIteration otherwise.
   */
  function GetZoomLink(event: RawEvent): (r: Result<Option<string>, Fault>)
    ensures r.Success? && r.value.Some? <==>
      Zoom.IsZoomText(Location(event)) || Zoom.HasZoomEntryPoint(event)
    ensures r == Success(None) <==> !Zoom.IsZoomText(Location(event)) && |EntryPoints(event)| == 0
    ensures r.Failure? <==>
      !Zoom.IsZoomText(Location(event)) && |EntryPoints(event)| > 0 && !Zoom.HasZoomEntryPoint(event)
    ensures r.Failure? ==> r.error == StopIteration
    ensures r.Success? && r.value.Some? ==> Zoom.IsZoomText(r.value.value)
  {
    Zoom.GetZoomLinkOutcome(event);
    Zoom.GetZoomLink(event)
  }

  /** `has_zoom_link(event, args)`: whether the extractor found a link; StopIteration passes through. */
  function HasZoomLink(event: RawEvent): (r: Result<bool, Fault>)
    ensures r == Zoom.HasZoomLink(event)
    ensures r.Success? <==> GetZoomLink(event).Success?
    ensures r.Success? ==> (r.value <==> GetZoomLink(event).value.Some?)
  {
    match GetZoomLink(event)
    case Success(link) => Success(link.Some?)
    case Failure(f) => Failure(f)
  }

  /**
   * `parse_event_datetime(d)`: the instant of "dateTime", or else of "date";
   * `None` when neither key is there or the text does not parse.
   */
  function ParseEventDatetime(d: DateField, fromIso: IsoParser): (r: Option<Instant>)
    ensures "dateTime" in d ==> r == fromIso(d["dateTime"])
    ensures "dateTime" !in d && "date" in d ==> r == fromIso(d["date"])
    ensures "dateTime" !in d && "date" !in d ==> r == None
  {
    match RawDatetime(d)
    case Some(text) => fromIso(text)
    case None => None
  }

  /** The temporal part of `augment`: the parsed start and the three flags. */
  datatype Timing = Timing(start: Option<Instant>, isNotDay: bool, inProgress: bool, isNextJoinable: bool)

  /**
   * The time comparisons of `augment`.  For a timed event, `start <= now` raises
   * TypeError when the start did not parse, and `end >= now` raises when the
   * start is not later than `now` and the end did not parse.
   */
  function EventTiming(event: RawEvent, now: Instant, fromIso: IsoParser): (r: Result<Timing, Fault>)
    ensures var start := ParseEventDatetime(event.start, fromIso);
      var end := ParseEventDatetime(event.end, fromIso);
      r.Failure? <==> Zoom.IsNotDayOnly(event) && (start.None? || (start.value <= now && end.None?))
    ensures r.Failure? ==> r.error == TypeError
    ensures r.Success? ==>
      r.value.start == ParseEventDatetime(event.start, fromIso) && r.value.isNotDay == Zoom.IsNotDayOnly(event)
    ensures r.Success? ==> !(r.value.inProgress && r.value.isNextJoinable)
    ensures r.Success? && Zoom.IsDayOnly(event) ==> !r.value.inProgress && !r.value.isNextJoinable
    ensures r.Success? ==>
      var start := ParseEventDatetime(event.start, fromIso);
      var end := ParseEventDatetime(event.end, fromIso);
      (r.value.inProgress <==>
        Zoom.IsNotDayOnly(event) && start.Some? && start.value <= now && end.Some? && now <= end.value)
    ensures r.Success? ==>
      var start := ParseEventDatetime(event.start, fromIso);
      (r.value.isNextJoinable <==>
        Zoom.IsNotDayOnly(event) && start.Some? && now < start.value
        && start.value - now < Constants.JoinableWindow)
  {
    var start := ParseEventDatetime(event.start, fromIso);
    var end := ParseEventDatetime(event.end, fromIso);
    var isNotDay := Zoom.IsNotDayOnly(event);
    if isNotDay && start.None? then Failure(TypeError)
    else if isNotDay && start.value <= now && end.None? then Failure(TypeError)
    else
      var inProgress := isNotDay && start.value <= now && end.value >= now;
      var isNextJoinable :=
        if isNotDay && !inProgress && start.value > now then start.value - now < Constants.JoinableWindow
        else false;
      Success(Timing(start, isNotDay, inProgress, isNextJoinable))
  }

  /** The `if link:` of `augment`: it rewrites a non-empty link and drops the rest. */
  function AttachLink(link: Option<string>): (r: Option<string>)
    ensures r.Some? <==> link.Some? && link.value != ""
    ensures r.Some? ==> Zoom.JoinPrefix <= r.value
  {
    if link.Some? && link.value != "" then Some(Zoom.ConvertToZoomProtocol(link.value)) else None
  }

  /** A link the extractor returns holds the marker, so it is never the empty string. */
  lemma ExtractedLinkIsTruthy(link: Option<string>)
    requires link.Some? ==> Zoom.IsZoomText(link.value)
    ensures AttachLink(link) == if link.Some? then Some(Zoom.ConvertToZoomProtocol(link.value)) else None
  {
    assert |Zoom.ZoomMarker| == 7;
  }

  /** The record `augment` returns, from the timing and the extracted link. */
  function Build(event: RawEvent, t: Timing, link: Option<string>): MyEvent {
    MyEvent(event.id, t.start, event.summary, t.isNotDay, t.inProgress, t.isNextJoinable, AttachLink(link))
  }

  /** `augment(event)`: the timing first, then the link, each of which may raise. */
  function Augment(event: RawEvent, now: Instant, fromIso: IsoParser): (r: Result<MyEvent, Fault>)
    ensures r.Failure? <==> EventTiming(event, now, fromIso).Failure? || GetZoomLink(event).Failure?
    ensures r.Failure? && EventTiming(event, now, fromIso).Failure? ==> r.error == TypeError
    ensures r.Failure? && EventTiming(event, now, fromIso).Success? ==> r.error == StopIteration
    ensures r.Success? ==>
      var t := EventTiming(event, now, fromIso).value;
      && r.value.id == event.id && r.value.summary == event.summary
      && r.value.start == t.start && r.value.isNotDayEvent == t.isNotDay
      && r.value.inProgress == t.inProgress && r.value.isNextJoinable == t.isNextJoinable
    ensures r.Success? ==>
      (r.value.zoomLink.Some? <==> GetZoomLink(event).value.Some?)
      && (r.value.zoomLink.Some? ==>
            r.value.zoomLink.value == Zoom.ConvertToZoomProtocol(GetZoomLink(event).value.value))
  {
    match EventTiming(event, now, fromIso)
    case Failure(f) => Failure(f)
    case Success(t) =>
      match GetZoomLink(event)
      case Failure(f) => Failure(f)
      case Success(link) =>
        ExtractedLinkIsTruthy(link);
        Success(Build(event, t, link))
  }

  /** `out[i]` is the record `augment` makes of `events[i]`, for every `i` below `|out|`. */
  predicate AugmentsPrefix(events: seq<RawEvent>, out: seq<MyEvent>, now: Instant, fromIso: IsoParser) {
    |out| <= |events| && forall i :: 0 <= i < |out| ==> Augment(events[i], now, fromIso) == Success(out[i])
  }

  /** The list stops short of the events only at an event whose extraction raised StopIteration. */
  predicate StopsAtStopIteration(events: seq<RawEvent>, out: seq<MyEvent>, now: Instant, fromIso: IsoParser) {
    |out| < |events| ==> Augment(events[|out|], now, fromIso) == Failure(StopIteration)
  }

  /**
   * `parse_events(events)`, that is `list(map(augment, events))`.  A
   * StopIteration escaping `augment` reaches `list()` as the end of the map
   * iterator, so the list silently stops before that event; a TypeError
   * propagates.
   */
  function ParseEvents(events: seq<RawEvent>, now: Instant, fromIso: IsoParser): (r: Result<seq<MyEvent>, Fault>)
    ensures r.Success? ==> AugmentsPrefix(events, r.value, now, fromIso)
    ensures r.Success? ==> StopsAtStopIteration(events, r.value, now, fromIso)
    ensures r.Failure? ==> r.error == TypeError
    decreases |events|
  {
    if |events| == 0 then Success([])
    else
      match Augment(events[0], now, fromIso)
      case Failure(StopIteration) => Success([])
      case Failure(f) => Failure(f)
      case Success(e) =>
        match ParseEvents(events[1..], now, fromIso)
        case Failure(f) => Failure(f)
        case Success(rest) =>
          PrefixCons(events, e, rest, now, fromIso);
          Success([e] + rest)
  }

  /** One step of `parse_events`: the head's record in front of the rest's records. */
  lemma PrefixCons(events: seq<RawEvent>, e: MyEvent, rest: seq<MyEvent>, now: Instant, fromIso: IsoParser)
    requires |events| > 0 && Augment(events[0], now, fromIso) == Success(e)
    requires AugmentsPrefix(events[1..], rest, now, fromIso)
    requires StopsAtStopIteration(events[1..], rest, now, fromIso)
    ensures AugmentsPrefix(events, [e] + rest, now, fromIso)
    ensures StopsAtStopIteration(events, [e] + rest, now, fromIso)
  {
    var out := [e] + rest;
    forall i | 0 <= i < |out|
      ensures Augment(events[i], now, fromIso) == Success(out[i])
    {
      if i > 0 {
        assert out[i] == rest[i - 1] && events[i] == events[1..][i - 1];
      }
    }
    if |out| < |events| {
      assert events[|out|] == events[1..][|rest|];
    }
  }

  /**
   * The effect of the StopIteration leak: every event from the first one
   * whose extraction raises is dropped, and the call still succeeds.
   */
  lemma {:induction false} ParseEventsTruncates(events: seq<RawEvent>, now: Instant, fromIso: IsoParser, k: nat)
    requires k < |events|
    requires forall j :: 0 <= j < k ==> Augment(events[j], now, fromIso).Success?
    requires Augment(events[k], now, fromIso) == Failure(StopIteration)
    ensures ParseEvents(events, now, fromIso).Success?
    ensures |ParseEvents(events, now, fromIso).value| == k
    decreases k
  {
    if k > 0 {
      ParseEventsTruncates(events[1..], now, fromIso, k - 1);
    }
  }

  /**
   * `get_zoom_link` as evidently intended: `next(..., None)`, so an event
   * whose location and entry points hold no Zoom link has no link rather
   * than raising.
   */
  function GetZoomLinkIntended(event: RawEvent): (r: Option<string>)
    ensures r.Some? ==> Zoom.IsZoomText(r.value)
    ensures r.None? <==> !Zoom.IsZoomText(Location(event)) && !Zoom.HasZoomEntryPoint(event)
    ensures GetZoomLink(event).Success? ==> r == GetZoomLink(event).value
  {
    Intercept(GetZoomLink(event))
  }

  /** `next(..., None)`: an exhausted generator yields no link instead of raising. */
  function Intercept(found: Result<Option<string>, Fault>): Option<string> {
    match found
    case Success(link) => link
    case Failure(_) => None
  }

  /** `augment` built on the intended extractor: only the time comparisons can raise. */
  function AugmentIntended(event: RawEvent, now: Instant, fromIso: IsoParser): (r: Result<MyEvent, Fault>)
    ensures r.Failure? <==> EventTiming(event, now, fromIso).Failure?
    ensures r.Failure? ==> r.error == TypeError
    ensures r.Success? ==> r.value.id == event.id && r.value.summary == event.summary
    ensures r.Success? ==> (r.value.zoomLink.Some? <==> GetZoomLinkIntended(event).Some?)
    ensures r.Success? ==>
      var t := EventTiming(event, now, fromIso).value;
      r.value.start == t.start && r.value.isNotDayEvent == t.isNotDay
      && r.value.inProgress == t.inProgress && r.value.isNextJoinable == t.isNextJoinable
    ensures r.Success? && r.value.zoomLink.Some? ==>
      r.value.zoomLink.value == Zoom.ConvertToZoomProtocol(GetZoomLinkIntended(event).value)
    ensures Augment(event, now, fromIso).Success? ==> r == Augment(event, now, fromIso)
  {
    match EventTiming(event, now, fromIso)
    case Failure(f) => Failure(f)
    case Success(t) =>
      var link := GetZoomLinkIntended(event);
      ExtractedLinkIsTruthy(link);
      Success(Build(event, t, link))
  }

  /** `out[i]` is the record the corrected `augment` makes of `events[i]`, for every event. */
  predicate AugmentsAll(events: seq<RawEvent>, out: seq<MyEvent>, now: Instant, fromIso: IsoParser) {
    |out| == |events| && forall i :: 0 <= i < |events| ==> AugmentIntended(events[i], now, fromIso) == Success(out[i])
  }

  /** Some event's time comparison raises. */
  predicate SomeTimingFails(events: seq<RawEvent>, now: Instant, fromIso: IsoParser) {
    exists i :: 0 <= i < |events| && EventTiming(events[i], now, fromIso).Failure?
  }

  /** `parse_events` with the intended extractor: one record per event, in order, or TypeError. */
  function ParseEventsIntended(events: seq<RawEvent>, now: Instant, fromIso: IsoParser): (r: Result<seq<MyEvent>, Fault>)
    ensures r.Success? ==> AugmentsAll(events, r.value, now, fromIso)
    ensures r.Failure? <==> SomeTimingFails(events, now, fromIso)
    ensures r.Failure? ==> r.error == TypeError
    decreases |events|
  {
    if |events| == 0 then Success([])
    else
      TimingFailsCons(events, now, fromIso);
      match AugmentIntended(events[0], now, fromIso)
      case Failure(f) => Failure(f)
      case Success(e) =>
        match ParseEventsIntended(events[1..], now, fromIso)
        case Failure(f) => Failure(f)
        case Success(rest) =>
          AllCons(events, e, rest, now, fromIso);
          Success([e] + rest)
  }

  /** One step of the corrected `parse_events`. */
  lemma AllCons(events: seq<RawEvent>, e: MyEvent, rest: seq<MyEvent>, now: Instant, fromIso: IsoParser)
    requires |events| > 0 && AugmentIntended(events[0], now, fromIso) == Success(e)
    requires AugmentsAll(events[1..], rest, now, fromIso)
    ensures AugmentsAll(events, [e] + rest, now, fromIso)
  {
    var out := [e] + rest;
    forall i | 0 <= i < |events|
      ensures AugmentIntended(events[i], now, fromIso) == Success(out[i])
    {
      if i > 0 {
        assert out[i] == rest[i - 1] && events[i] == events[1..][i - 1];
      }
    }
  }

  /** A time comparison fails somewhere exactly when it fails at the head or in the rest. */
  lemma TimingFailsCons(events: seq<RawEvent>, now: Instant, fromIso: IsoParser)
    requires |events| > 0
    ensures SomeTimingFails(events, now, fromIso)
      <==> EventTiming(events[0], now, fromIso).Failure? || SomeTimingFails(events[1..], now, fromIso)
  {
    if SomeTimingFails(events[1..], now, fromIso) {
      var i :| 0 <= i < |events[1..]| && EventTiming(events[1..][i], now, fromIso).Failure?;
      assert events[1..][i] == events[i + 1];
    }
    if SomeTimingFails(events, now, fromIso) && !EventTiming(events[0], now, fromIso).Failure? {
      var i :| 0 <= i < |events| && EventTiming(events[i], now, fromIso).Failure?;
      assert events[i] == events[1..][i - 1];
    }
  }

  /** The corrected list keeps every event's id, in order. */
  lemma ParseEventsIntendedKeepsIds(events: seq<RawEvent>, now: Instant, fromIso: IsoParser)
    requires ParseEventsIntended(events, now, fromIso).Success?
    ensures var out := ParseEventsIntended(events, now, fromIso).value;
      |out| == |events| && forall i :: 0 <= i < |events| ==> out[i].id == events[i].id
  {
    var out := ParseEventsIntended(events, now, fromIso).value;
    forall i | 0 <= i < |events|
      ensures out[i].id == events[i].id
    {
      assert AugmentIntended(events[i], now, fromIso) == Success(out[i]);
    }
  }

  /** When no extraction raises, the code as written and the intended code agree. */
  lemma {:induction false} ParseEventsAgree(events: seq<RawEvent>, now: Instant, fromIso: IsoParser)
    requires forall i :: 0 <= i < |events| ==> GetZoomLink(events[i]).Success?
    ensures ParseEvents(events, now, fromIso) == ParseEventsIntended(events, now, fromIso)
    decreases |events|
  {
    if |events| > 0 {
      ParseEventsAgree(events[1..], now, fromIso);
    }
  }

  /** The event survives the filter of `command_list`: timed, with a non-empty link. */
  function IsListed(e: MyEvent): (b: bool)
    ensures b <==> e.isNotDayEvent && e.zoomLink.Some? && |e.zoomLink.value| > 0
  {
    e.isNotDayEvent && e.zoomLink.Some? && e.zoomLink.value != ""
  }

  /** `[e for e in events if e.is_not_day_event and e.zoom_link]` */
  function ListedEvents(events: seq<MyEvent>): (r: seq<MyEvent>)
    ensures forall i :: 0 <= i < |r| ==> IsListed(r[i]) && r[i] in events
    ensures forall i :: 0 <= i < |events| ==>
      multiset(r)[events[i]] == if IsListed(events[i]) then multiset(events)[events[i]] else 0
  {
    Select(events, IsListed)
  }

  /** The filter keeps the order of the events: it works piece by piece. */
  lemma ListedEventsAppend(a: seq<MyEvent>, b: seq<MyEvent>)
    ensures ListedEvents(a + b) == ListedEvents(a) + ListedEvents(b)
    ensures ListedEvents([]) == []
  {
    SelectAppend(a, b, IsListed);
  }

  predicate IsInProgress(e: MyEvent) {
    e.inProgress
  }

  predicate IsNextJoinable(e: MyEvent) {
    e.isNextJoinable
  }

  /**
   * `find_meeting_to_join(events)`: none on an empty list; otherwise the only
   * next-joinable meeting, else the only in-progress one, else no choice.
   */
  function FindMeetingToJoin(events: seq<MyEvent>): (r: (NextMeetingOptions, Option<MyEvent>))
    ensures r.0 == NoOptions <==> |events| == 0
    ensures r.1.Some? <==> r.0 == FoundNextMeeting
    ensures r.1.Some? ==> r.1.value in events && (r.1.value.isNextJoinable || r.1.value.inProgress)
  {
    if |events| > 0 then
      var inProgress := Select(events, IsInProgress);
      var next := Select(events, IsNextJoinable);
      if |next| == 1 then (FoundNextMeeting, Some(next[0]))
      else if |inProgress| == 1 then (FoundNextMeeting, Some(inProgress[0]))
      else (MultipleOptions, None)
    else (NoOptions, None)
  }

  /** A unique next-joinable meeting wins, however many meetings are in progress. */
  lemma FindMeetingPrefersUniqueNext(events: seq<MyEvent>, k: int)
    requires OnlyAt(events, IsNextJoinable, k)
    ensures FindMeetingToJoin(events) == (FoundNextMeeting, Some(events[k]))
  {
    SelectOnly(events, IsNextJoinable, k);
  }

  /** Without a unique next-joinable meeting, a unique in-progress meeting wins. */
  lemma FindMeetingFallsBackToInProgress(events: seq<MyEvent>, k: int)
    requires forall j :: !OnlyAt(events, IsNextJoinable, j)
    requires OnlyAt(events, IsInProgress, k)
    ensures FindMeetingToJoin(events) == (FoundNextMeeting, Some(events[k]))
  {
    if |Select(events, IsNextJoinable)| == 1 {
      var j := SelectSingleton(events, IsNextJoinable);
      assert false;
    }
    SelectOnly(events, IsInProgress, k);
  }

  /** With neither a unique next-joinable nor a unique in-progress meeting, the choice is left to the user. */
  lemma FindMeetingAmbiguous(events: seq<MyEvent>)
    requires |events| > 0
    requires forall j :: !OnlyAt(events, IsNextJoinable, j)
    requires forall j :: !OnlyAt(events, IsInProgress, j)
    ensures FindMeetingToJoin(events) == (MultipleOptions, None)
  {
    if |Select(events, IsNextJoinable)| == 1 {
      var j := SelectSingleton(events, IsNextJoinable);
      assert false;
    }
    if |Select(events, IsInProgress)| == 1 {
      var j := SelectSingleton(events, IsInProgress);
      assert false;
    }
  }

  /** What the list command hands to Alfred: the listed meetings and the verdict. */
  datatype ListOutcome = ListOutcome(items: seq<MyEvent>, nextMeeting: NextMeetingOptions, toJoin: Option<MyEvent>)

  /** The part of `command_list` after parsing: filter, then resolve. */
  function Resolve(parsed: seq<MyEvent>): (r: ListOutcome)
    ensures forall i :: 0 <= i < |r.items| ==> IsListed(r.items[i]) && r.items[i] in parsed
    ensures forall i :: 0 <= i < |parsed| ==>
      multiset(r.items)[parsed[i]] == if IsListed(parsed[i]) then multiset(parsed)[parsed[i]] else 0
    ensures r.nextMeeting == NoOptions <==> |r.items| == 0
    ensures r.toJoin.Some? ==>
      var e := r.toJoin.value;
      r.nextMeeting == FoundNextMeeting && e in r.items && IsListed(e) && (e.isNextJoinable || e.inProgress)
    ensures (r.nextMeeting, r.toJoin) == FindMeetingToJoin(r.items)
  {
    var items := ListedEvents(parsed);
    var (option, toJoin) := FindMeetingToJoin(items);
    ListOutcome(items, option, toJoin)
  }

  /** The offered items keep the order of the parsed records, piece by piece. */
  lemma ResolveKeepsOrder(a: seq<MyEvent>, b: seq<MyEvent>)
    ensures Resolve(a + b).items == Resolve(a).items + Resolve(b).items
  {
    ListedEventsAppend(a, b);
  }

  /** `e` is what `augment` makes of one of the events. */
  predicate IsAugmentOfSome(events: seq<RawEvent>, e: MyEvent, now: Instant, fromIso: IsoParser) {
    exists j :: 0 <= j < |events| && Augment(events[j], now, fromIso) == Success(e)
  }

  /** Items drawn from the records of `parse_events` are each the record of some event. */
  lemma ItemsComeFromEvents(events: seq<RawEvent>, parsed: seq<MyEvent>, items: seq<MyEvent>, now: Instant, fromIso: IsoParser)
    requires AugmentsPrefix(events, parsed, now, fromIso)
    requires forall i :: 0 <= i < |items| ==> items[i] in parsed
    ensures forall i :: 0 <= i < |items| ==> IsAugmentOfSome(events, items[i], now, fromIso)
  {
    forall i | 0 <= i < |items|
      ensures IsAugmentOfSome(events, items[i], now, fromIso)
    {
      var j :| 0 <= j < |parsed| && parsed[j] == items[i];
      assert Augment(events[j], now, fromIso) == Success(items[i]);
    }
  }

  /** The decisions of `command_list` as written, on top of the truncating `parse_events`. */
  function CommandListAsWritten(events: seq<RawEvent>, now: Instant, fromIso: IsoParser): (r: Result<ListOutcome, Fault>)
    ensures r.Failure? <==> ParseEvents(events, now, fromIso).Failure?
    ensures r.Failure? ==> r.error == TypeError
    ensures r.Success? ==>
      var p := ParseEvents(events, now, fromIso).value;
      (forall i :: 0 <= i < |r.value.items| ==> IsListed(r.value.items[i]))
      && (forall i :: 0 <= i < |p| ==> IsListed(p[i]) ==> p[i] in r.value.items)
    ensures r.Success? ==>
      forall i :: 0 <= i < |r.value.items| ==> r.value.items[i] in ParseEvents(events, now, fromIso).value
    ensures r.Success? ==> (r.value.nextMeeting, r.value.toJoin) == FindMeetingToJoin(r.value.items)
    ensures r.Success? ==>
      forall i :: 0 <= i < |r.value.items| ==> IsAugmentOfSome(events, r.value.items[i], now, fromIso)
  {
    match ParseEvents(events, now, fromIso)
    case Failure(f) => Failure(f)
    case Success(parsed) =>
      var r := Resolve(parsed);
      ItemsComeFromEvents(events, parsed, r.items, now, fromIso);
      Success(r)
  }

  /**
   * The decisions of `command_list` with the intended extractor: it fails only
   * when a timed event's start or end cannot be compared, and otherwise offers
   * every timed meeting that has a link.
   */
  function CommandList(events: seq<RawEvent>, now: Instant, fromIso: IsoParser): (r: Result<ListOutcome, Fault>)
    ensures r.Failure? <==> exists i :: 0 <= i < |events| && EventTiming(events[i], now, fromIso).Failure?
    ensures r.Failure? ==> r.error == TypeError
    ensures r.Success? ==>
      forall i :: 0 <= i < |events| ==>
        var a := AugmentIntended(events[i], now, fromIso);
        a.Success? && (IsListed(a.value) ==> a.value in r.value.items)
    ensures r.Success? ==> forall i :: 0 <= i < |r.value.items| ==> IsListed(r.value.items[i])
    ensures r.Success? ==>
      forall i :: 0 <= i < |r.value.items| ==> r.value.items[i] in ParseEventsIntended(events, now, fromIso).value
    ensures r.Success? ==> (r.value.nextMeeting, r.value.toJoin) == FindMeetingToJoin(r.value.items)
    ensures r.Success? && r.value.toJoin.Some? ==>
      var e := r.value.toJoin.value;
      e in r.value.items && (e.isNextJoinable || e.inProgress)
    ensures r.Success? && r.value.toJoin.Some? ==>
      exists i :: 0 <= i < |events| && AugmentIntended(events[i], now, fromIso) == Success(r.value.toJoin.value)
  {
    match ParseEventsIntended(events, now, fromIso)
    case Failure(f) => Failure(f)
    case Success(parsed) => Success(Resolve(parsed))
  }

  /**
   * The leak in general: an all-day event whose entry points hold no Zoom
   * link, listed before a next-joinable Zoom meeting, makes the code as
   * written offer nothing, where the intended code offers that meeting.
   */
  lemma LeakHidesMeeting(first: RawEvent, meeting: RawEvent, now: Instant, fromIso: IsoParser)
    requires GetZoomLink(first) == Failure(StopIteration)
    requires Zoom.IsDayOnly(first)
    requires AugmentIntended(meeting, now, fromIso).Success?
    requires IsListed(AugmentIntended(meeting, now, fromIso).value)
    requires AugmentIntended(meeting, now, fromIso).value.isNextJoinable
    ensures CommandListAsWritten([first, meeting], now, fromIso) == Success(ListOutcome([], NoOptions, None))
    ensures var m := AugmentIntended(meeting, now, fromIso).value;
      CommandList([first, meeting], now, fromIso) == Success(ListOutcome([m], FoundNextMeeting, Some(m)))
  {
    assert ParseEvents([first, meeting], now, fromIso) == Success([]);
    assert Resolve([]) == ListOutcome([], NoOptions, None);
    var p := AugmentIntended(first, now, fromIso).value;
    var m := AugmentIntended(meeting, now, fromIso).value;
    IntendedKeepsBoth(first, meeting, now, fromIso);
    ResolveUniqueNext(p, m);
  }

  /** The intended `parse_events` keeps an all-day event and the meeting after it. */
  lemma IntendedKeepsBoth(first: RawEvent, meeting: RawEvent, now: Instant, fromIso: IsoParser)
    requires Zoom.IsDayOnly(first)
    requires AugmentIntended(meeting, now, fromIso).Success?
    ensures AugmentIntended(first, now, fromIso).Success?
    ensures ParseEventsIntended([first, meeting], now, fromIso)
      == Success([AugmentIntended(first, now, fromIso).value, AugmentIntended(meeting, now, fromIso).value])
  {
    var p := AugmentIntended(first, now, fromIso).value;
    var m := AugmentIntended(meeting, now, fromIso).value;
    ParseEventsIntendedCons(meeting, [], now, fromIso);
    assert [meeting] + [] == [meeting] && [m] + [] == [m];
    ParseEventsIntendedCons(first, [meeting], now, fromIso);
    assert [first] + [meeting] == [first, meeting] && [p] + [m] == [p, m];
  }

  /** An unlisted record next to a listed, next-joinable meeting: that meeting is the one to join. */
  lemma ResolveUniqueNext(p: MyEvent, m: MyEvent)
    requires !p.isNotDayEvent
    requires IsListed(m) && m.isNextJoinable
    ensures Resolve([p, m]) == ListOutcome([m], FoundNextMeeting, Some(m))
  {
    assert ListedEvents([p, m]) == [m];
    SelectOnly([m], IsNextJoinable, 0);
  }

  /** One step of the intended `parse_events`: a record for the head, then the rest. */
  lemma ParseEventsIntendedCons(e: RawEvent, rest: seq<RawEvent>, now: Instant, fromIso: IsoParser)
    requires AugmentIntended(e, now, fromIso).Success?
    requires ParseEventsIntended(rest, now, fromIso).Success?
    ensures ParseEventsIntended([e] + rest, now, fromIso)
      == Success([AugmentIntended(e, now, fromIso).value] + ParseEventsIntended(rest, now, fromIso).value)
  {
    assert ([e] + rest)[0] == e;
    assert ([e] + rest)[1..] == rest;
  }

  /** A Google Meet link is no Zoom link. */
  lemma MeetLinkIsNotZoom()
    ensures !Zoom.IsZoomText("https://meet.google.com/abc-defg-hij")
    ensures !Zoom.IsZoomText("")
  {
    AbsentFirstChar("https://meet.google.com/abc-defg-hij", Zoom.ZoomMarker);
  }

  /** An all-day event carrying only a Google Meet entry point makes the extractor raise. */
  lemma MeetOnlyEventRaises(event: RawEvent)
    requires event.location.None?
    requires event.entryPoints == Some([EntryPoint(Some("https://meet.google.com/abc-defg-hij"))])
    ensures GetZoomLink(event) == Failure(StopIteration)
  {
    MeetLinkIsNotZoom();
    assert !Zoom.IsZoomEntryPoint(EntryPoints(event)[0]);
    Zoom.EntryPointFallback(event);
  }

  /** A timed meeting two minutes away, located at a Zoom URL, is listed as next joinable. */
  lemma ImminentZoomMeetingIsListed(meeting: RawEvent, now: Instant, fromIso: IsoParser)
    requires meeting.start == map["dateTime" := "2024-05-01T10:00:00+00:00"]
    requires meeting.location == Some("https://zoom.us/j/1")
    requires fromIso("2024-05-01T10:00:00+00:00") == Some(now + 2 * Constants.MicrosPerMinute)
    ensures AugmentIntended(meeting, now, fromIso).Success?
    ensures IsListed(AugmentIntended(meeting, now, fromIso).value)
    ensures AugmentIntended(meeting, now, fromIso).value.isNextJoinable
  {
    assert OccursAt("https://zoom.us/j/1", Zoom.ZoomMarker, 8);
    assert ParseEventDatetime(meeting.start, fromIso) == Some(now + 2 * Constants.MicrosPerMinute);
    Zoom.LocationFirst(meeting, None);
  }

  /**
   * A concrete input that shows the leak: an all-day offsite held on Google
   * Meet hides a Zoom retro two minutes away.
   */
  lemma MeetEventHidesRetro(now: Instant, fromIso: IsoParser)
    requires fromIso("2024-05-01T10:00:00+00:00") == Some(now + 2 * Constants.MicrosPerMinute)
    ensures
      var offsite := RawEvent("a", "Offsite", map["date" := "2024-05-01"], map["date" := "2024-05-02"],
                              None, Some([EntryPoint(Some("https://meet.google.com/abc-defg-hij"))]));
      var retro := RawEvent("b", "Retro", map["dateTime" := "2024-05-01T10:00:00+00:00"],
                            map["dateTime" := "2024-05-01T10:30:00+00:00"], Some("https://zoom.us/j/1"), None);
      && CommandListAsWritten([offsite, retro], now, fromIso) == Success(ListOutcome([], NoOptions, None))
      && CommandList([offsite, retro], now, fromIso).Success?
      && CommandList([offsite, retro], now, fromIso).value.nextMeeting == FoundNextMeeting
      && CommandList([offsite, retro], now, fromIso).value.toJoin.value.id == "b"
  {
    var offsite := RawEvent("a", "Offsite", map["date" := "2024-05-01"], map["date" := "2024-05-02"],
                            None, Some([EntryPoint(Some("https://meet.google.com/abc-defg-hij"))]));
    var retro := RawEvent("b", "Retro", map["dateTime" := "2024-05-01T10:00:00+00:00"],
                          map["dateTime" := "2024-05-01T10:30:00+00:00"], Some("https://zoom.us/j/1"), None);
    MeetOnlyEventRaises(offsite);
    ImminentZoomMeetingIsListed(retro, now, fromIso);
    LeakHidesMeeting(offsite, retro, now, fromIso);
  }
}
